=== FILE: README.md ===
# RFM customer segmentation, modelled in Dafny

This project models the RFM (Recency, Frequency, Monetary) feature pipeline of
`lib/mylib.py` and proves properties of it. The pipeline has five stages:

- **Cleaning.** `CustomerSegmentation.clean_data` coerces the three columns the
  pipeline reads and overwrites them in the caller's DataFrame. It then drops:
  - rows without a date;
  - non-positive sales;
  - exact duplicates.
- **Aggregation.** `calculate_rfm` aggregates the transactions into one RFM row
  per customer.
- **Scoring.** `prepare_rfm_features` clips every value into the range of its
  five bin edges and scores it with `pd.cut(..., include_lowest=True)`. The
  model covers both copies: the method and the module-level function.
- **Labelling.** `segment_customers` chains the stages above. It then adds two
  columns in place to the RFM table: `Cluster`, predicted by the pretrained
  model, and `Segment`, a fixed cluster-to-name map.
- **Summaries.** This stage covers:
  - `summarize_clusters`;
  - the share and revenue arithmetic of `SegmentationVisualizer.show_cluster_summary`;
  - the label lookup with defaults of `SegmentationVisualizer.suggest_actions`.

The model's form follows the source:

- Where the source updates things in place, the model does too.
  - `Cleaning.Frame` is the uploaded table, whose columns `clean_data`
    overwrites.
  - `Segmentation.RfmTable` is the RFM table that gains its `Cluster` and
    `Segment` columns through `SetClusters` and `SetSegments`.
  - `Summary.ShowClusterSummary` builds the summary column by column.
- The expression-style parts are functions over sequences of rows: the
  aggregation, the scoring, the group-by summary and the label lookup.

The model makes these representation choices:

- **Timestamps** are integer nanoseconds, as in pandas. The day of a timestamp
  is floor division by the number of nanoseconds in a day.
- **Money** is an exact `real`.
- **Raw cells** hold the outcome of pandas' `errors='coerce'` parsing:
  - a CustomerID cell is unparsed, finite or infinite;
  - a date or a sale is `Option`.
- **The pretrained scaler and KMeans model** are one opaque function
  `predict: Features -> int`, applied row by row.
- **The bin edges and the cluster-labels dictionary** are parameters.

Files:

| file | content |
|---|---|
| `wrappers.dfy` | `Option` |
| `grouping.dfy` | the pandas table operations the pipeline relies on, over sequences |
| `cleaning.dfy` | `clean_data` |
| `rfm.dfy` | `calculate_rfm` |
| `scoring.dfy` | both `prepare_rfm_features` |
| `segmentation.dfy` | `segment_customers` |
| `summary.dfy` | `summarize_clusters` and the `show_cluster_summary` arithmetic |
| `labels.dfy` | the `suggest_actions` lookup |

Grouping's table operations are:

- boolean-mask filtering;
- `drop_duplicates`;
- the sorted keys of a `groupby`;
- the rows of one group;
- column sums and maxima;
- the conservation of sums under grouping.

Two behaviours of the code deserve a note; the model follows the code in both.

- **Unparseable CustomerID.** An unparseable CustomerID does not drop the row:
  `fillna(0)` runs before `dropna`, so the row stays, under customer 0
  (`Cleaning.UnparsedIdKeptAsZero`).
- **Duplicate bin edges.** Duplicate bin edges are not collapsed: `pd.cut`
  raises.
  - The method copy of `prepare_rfm_features` catches the error and returns an
    empty table.
  - The module-level copy raises (`Scoring.PrepareFeatures` returns `None`).
  - `segment_customers` then hands `scaler.transform` the empty table. The
    transform raises, so the result is empty (`Segmentation.SegmentEmptyIff`).

## Model

| member | source | states |
|---|---|---|
| Grouping.Filter | lib/mylib.py:80-81 | a boolean-mask filter keeps only rows that satisfy the mask, every such row, in their original order |
| Grouping.FilterKeepsEveryCopy | lib/mylib.py:80-81 | the filter keeps every copy of a row that satisfies the mask and no copy of any other row |
| Grouping.DropDuplicates | lib/mylib.py:82 | `drop_duplicates` (keep='first') leaves no two equal rows, loses no distinct row, keeps the order, and orders the survivors by first occurrence |
| Grouping.KeptBefore | lib/mylib.py:82 | a survivor occurs in the input before every copy of any later survivor |
| Grouping.SortedKeys | lib/mylib.py:91 | the keys of a groupby are strictly ascending, include every row's key and only keys that occur |
| Grouping.Group | lib/mylib.py:91-94 | a group holds only rows with its key, every such row, in their original order |
| Grouping.GroupIsFilter | lib/mylib.py:91-94 | a group is the boolean-mask filter on its key |
| Grouping.GroupKeepsEveryCopy | lib/mylib.py:91-94 | a group holds every copy of each row with its key and no other row |
| Grouping.KeyGroupNonEmpty | lib/mylib.py:91 | every groupby key has at least one row |
| Grouping.MaxBy | lib/mylib.py:90 | the column maximum bounds every value and is attained by a row |
| Grouping.GroupedSumTotal | lib/mylib.py:91-94 | the per-group sums over all keys add up to the column sum, so grouping loses and duplicates nothing |
| Grouping.PerGroupColumnSum | lib/mylib.py:94 | a table holding one sum per group has the same column total as the grouped table |
| Grouping.SubsequenceTransitive | lib/mylib.py:80-82 | removing rows in successive steps still leaves an order-preserving subsequence |
| Grouping.SumOfPercentages | lib/mylib.py:274 | a column computed as value / d × 100 sums to (sum of the values) / d × 100 |
| Grouping.PercentagesOfTotal | lib/mylib.py:288 | percentages of a column's own non-zero total sum to 100 |
| Cleaning.Truncate | lib/mylib.py:77 | `astype(int)` truncates toward zero: the result is within one of the value, toward zero |
| Cleaning.CoerceId | lib/mylib.py:77 | an unparseable CustomerID becomes 0; a parsed one is truncated toward zero, and an integral one is kept |
| Cleaning.Coerce | lib/mylib.py:77-79 | coercion keeps the date and the other columns; an unparseable sale becomes 0.0 and a parsed one keeps its value |
| Cleaning.WrittenBack | lib/mylib.py:77-79 | the frame after the in-place writes has the same rows, no infinite CustomerID, and each row coerces to what the original row coerces to |
| Cleaning.WriteBackCoercesBack | lib/mylib.py:77-79 | coercing a written-back row gives the coerced row again |
| Cleaning.RecleanSame | lib/mylib.py:75-86 | cleaning the written-back frame again gives the same coerced columns and the same cleaned table |
| Cleaning.CoerceAll | lib/mylib.py:77-79 | the coercions keep the row count |
| Cleaning.CleanedRows | lib/mylib.py:80-82 | a coerced row is kept iff it has a date and positive sales; each kept row has both, and none is kept twice |
| Cleaning.DropInvalid | lib/mylib.py:80-82 | on any coerced table, a row is kept iff it has a date and a positive sale, and none is kept twice |
| Cleaning.DropInvalidEmptyIff | lib/mylib.py:80-82 | the filtered table is empty iff no row has both a date and a positive sale |
| Cleaning.ToTxns | lib/mylib.py:80-82 | once every kept row has a date, unwrapping the date keeps distinct rows distinct |
| Cleaning.Cleaned | lib/mylib.py:75-86 | every returned row has TotalSales > 0 and no row is returned twice |
| Cleaning.CleanData | lib/mylib.py:75-86 | returns the cleaned table; the caller's frame gets the coerced columns, or stays unchanged when the CustomerID cast raises |
| Cleaning.CleanedRowsSubsequence | lib/mylib.py:80-82 | cleaning only removes whole rows and keeps the others in order |
| Cleaning.CleanedEmptyIff | lib/mylib.py:77-86 | the result is empty iff the CustomerID cast raises or no row has both a parsed date and a positive parsed sale |
| Cleaning.RowKeptIff | lib/mylib.py:78-81 | a row survives iff its date parsed and its sale parsed to a positive number; an unparseable sale becomes 0 and is dropped |
| Cleaning.UnparsedIdKeptAsZero | lib/mylib.py:77-80 | a row with an unparseable CustomerID but a valid date and sale is kept, as customer 0 |
| Rfm.CalculateRfm | lib/mylib.py:88-100 | one row per distinct CustomerID |
| Rfm.Day | lib/mylib.py:90 | `.date()` of a timestamp is the day whose nanosecond span contains it |
| Rfm.ReferenceDay | lib/mylib.py:90 | the reference day is no earlier than the day of any row, and some row falls on it |
| Rfm.DaysBelowMax | lib/mylib.py:90 | no row's day is later than the day of the latest timestamp |
| Rfm.Aggregate | lib/mylib.py:91-94 | a customer's row carries the customer's id and Frequency ≥ 1; Recency is at most the reference day minus the day of any of their purchases, with equality for one of them |
| Rfm.OwnLatestDay | lib/mylib.py:92 | the day of a customer's latest timestamp is no earlier than the day of any of their purchases, and one of them falls on it |
| Rfm.RfmRowsAreAggregates | lib/mylib.py:91-95 | a non-empty table gives a non-empty result, and row i is the aggregate (Recency, Frequency, Monetary) of the i-th smallest CustomerID |
| Rfm.RfmAscending | lib/mylib.py:91 | rows are in strictly ascending CustomerID order, so no customer has two rows |
| Rfm.CustomerHasRow | lib/mylib.py:91 | every customer of the input has a row |
| Rfm.RowHasCustomer | lib/mylib.py:91 | every row belongs to a customer of the input |
| Rfm.FrequencyAndMonetaryPositive | lib/mylib.py:93-94 | Frequency ≥ 1 always; Monetary > 0 when every sale is positive |
| Rfm.FrequencyTotal | lib/mylib.py:93 | the Frequencies add up to the number of transactions |
| Rfm.MonetaryTotal | lib/mylib.py:94 | the Monetary values add up to the total of all sales |
| Rfm.DayMonotone | lib/mylib.py:90-92 | `.date()` is monotone in the timestamp |
| Rfm.TruncateAfterMax | lib/mylib.py:90 | the day of the latest timestamp is the latest day of any row |
| Rfm.LatestPurchase | lib/mylib.py:92 | a customer's latest purchase is one of their rows and no later than the latest row overall |
| Rfm.NoLaterPurchase | lib/mylib.py:92 | no row of the customer is later than the customer's latest purchase |
| Rfm.LatestDay | lib/mylib.py:90-92 | a customer's latest day is at most the reference day, and equals it iff one of their purchases falls on it |
| Rfm.RecencyIs | lib/mylib.py:90-92 | Recency is the latest day over all rows minus the latest day among the customer's rows (truncating to days after the maximum equals the maximum of the days) |
| Rfm.RecencyOfCustomer | lib/mylib.py:90-92 | Recency ≥ 0, and Recency = 0 iff the customer bought on the reference day |
| Rfm.RecencyProperties | lib/mylib.py:90-92 | all Recencies are ≥ 0 and some customer (the owner of the latest invoice) has Recency 0 |
| Scoring.Clip | lib/mylib.py:105-107 | `clip` returns the value inside the range, or the nearer bound outside it |
| Scoring.CountBelowSplits | lib/mylib.py:109-114 | on increasing edges, the edges below a value are exactly a prefix |
| Scoring.BinIndex | lib/mylib.py:109-114 | a value within the edges falls in interval k of 1..4 with edges[k-1] ≤ x ≤ edges[k]; strictly above edges[k-1] unless k = 1 |
| Scoring.IntervalDeterminesBin | lib/mylib.py:109-114 | a value in interval k gets bin index k |
| Scoring.Score | lib/mylib.py:105-114 | the score is one of the labels, and a clipped value in interval k gets the k-th label |
| Scoring.ScoreRow | lib/mylib.py:105-114 | the R, F and M scores of a row are all in 1..4 |
| Scoring.RecencyScore | lib/mylib.py:109-110 | the R score is in 1..4 |
| Scoring.ValueScore | lib/mylib.py:111-114 | the F and M scores are in 1..4 |
| Scoring.PrepareFeatures | lib/mylib.py:350-360 | gives a result iff all three bins have five strictly increasing edges; then one scored row per input row, in order |
| Scoring.PrepareFeaturesOrEmpty | lib/mylib.py:102-120 | with valid bins, row i is the scored row i of the input; otherwise the empty table |
| Scoring.BinIndexExactly | lib/mylib.py:109-114 | the lowest edge belongs to interval 1 (include_lowest); every other value belongs to the interval closed on its right |
| Scoring.EdgeScores | lib/mylib.py:109-114 | edge k scores k for F/M and 5-k for R; the lowest edge scores 1 and 4 |
| Scoring.OutOfRangeScores | lib/mylib.py:105-114 | values beyond the outer edges score like the nearest edge |
| Scoring.BinIndexMonotone | lib/mylib.py:109-114 | the interval index is monotone in the value |
| Scoring.ScoresMonotone | lib/mylib.py:105-114 | larger F or M never lowers its score; larger Recency never raises R |
| Segmentation.SegmentName | lib/mylib.py:136-137 | `Series.map(cluster_map)` gives a name iff the cluster is 0..3 |
| Segmentation.Labels | lib/mylib.py:132-137 | row i keeps RFM row i, the cluster predicted from feature row i, and that cluster's name |
| Segmentation.SegmentCleaned | lib/mylib.py:125-138 | a non-empty result has one row per customer of the cleaned table, and each row's Segment is its cluster's name |
| Segmentation.Segment | lib/mylib.py:122-141 | the same for the upload: one row per customer of the cleaned upload, Segment matching Cluster |
| Segmentation.SegmentIdempotent | lib/mylib.py:122-141 | labelling the frame that `clean_data` overwrote gives the same table as labelling the upload |
| Segmentation.SegmentTwice | lib/mylib.py:122-141 | a second `segment_customers` on the same DataFrame returns the same table as the first |
| Segmentation.ClusterNames | lib/mylib.py:136 | the four names are the map's values, pairwise distinct, and only cluster 0 is "Loyal" |
| Segmentation.RfmTable.SetClusters | lib/mylib.py:134 | sets the Cluster column and leaves the other columns unchanged |
| Segmentation.RfmTable.SetSegments | lib/mylib.py:137 | sets Segment[i] to the name of Cluster[i], other columns unchanged |
| Segmentation.Annotate | lib/mylib.py:132-137 | the labelled table has each RFM row with its predicted cluster and that cluster's name |
| Segmentation.LabelCustomers | lib/mylib.py:125-138 | the returned table is the specified result for the cleaned table, including every early empty return |
| Segmentation.SegmentCustomers | lib/mylib.py:122-141 | returns the specified labelled table for the upload and leaves the caller's frame as `clean_data` does |
| Segmentation.SegmentEmptyIff | lib/mylib.py:124-132 | the result is empty iff cleaning leaves nothing or some bins are not valid for `pd.cut` |
| Segmentation.SegmentCleanedRows | lib/mylib.py:127-137 | otherwise row i holds the i-th RFM row, the cluster predicted from its scores, and that cluster's name |
| Segmentation.LabelNames | lib/mylib.py:134-137 | when the model only predicts 0..3, every labelled row has a name among the four, matching its cluster |
| Segmentation.SegmentNamesDefined | lib/mylib.py:134-137 | the same for the whole batch |
| Summary.Mean | lib/mylib.py:146-148 | the mean of a non-empty column, taken once per row, gives the column sum |
| Summary.StatsOf | lib/mylib.py:145-150 | a cluster's statistics row carries the cluster and its number of customers, at least 1 |
| Summary.StatsTimesCount | lib/mylib.py:145-150 | each mean times the cluster's count is the cluster's column sum |
| Summary.SummarizeClusters | lib/mylib.py:143-154 | one row per cluster, in ascending cluster order, each with at least one customer |
| Summary.WeightedColumnAddsUp | lib/mylib.py:145-150 | per-cluster values that each equal the cluster's column sum add up to the column sum of all customers |
| Summary.MeansAddUp | lib/mylib.py:143-154 | the Recency, Frequency and Monetary means, weighted by the cluster counts, add up to the column totals of all customers |
| Summary.RevenueOf | lib/mylib.py:278 | revenue is non-negative when Monetary is, and positive when Frequency ≥ 1 and Monetary > 0 |
| Summary.CountColumn | lib/mylib.py:273 | one count per cluster: the number of the cluster's customers, at least 1 |
| Summary.RevenueColumn | lib/mylib.py:277-281 | one revenue entry per cluster (its total is stated by `RevenueColumnTotal`) |
| Summary.ReportOf | lib/mylib.py:263-288 | a report row holds the cluster's statistics row and the revenue of the cluster's customers |
| Summary.RevenueShareOfReport | lib/mylib.py:287-288 | a revenue share times the denominator is 100 times the cluster's revenue |
| Summary.RevenueDenominator | lib/mylib.py:287 | the denominator is never 0 and is the total revenue whenever that total is non-zero |
| Summary.ClusterSummary | lib/mylib.py:263-288 | one report row per cluster |
| Summary.RevenueColumnTotal | lib/mylib.py:277-287 | the revenue column of the merged summary sums to the revenue of all customers |
| Summary.ReportColumns | lib/mylib.py:273-288 | a report row is the cluster's statistics, count / total × 100, its revenue, and revenue / denominator × 100 |
| Summary.ShowClusterSummary | lib/mylib.py:263-288 | the summary built column by column is the per-cluster report |
| Summary.SummaryOnePerCluster | lib/mylib.py:145-150 | clusters are strictly ascending, every customer's cluster is present, each has at least one customer |
| Summary.CountSharesAddUp | lib/mylib.py:273-274 | counts add up to the number of customers and count shares to 100 |
| Summary.RevenueAddsUp | lib/mylib.py:277-284 | per-cluster revenues add up to the total revenue |
| Summary.RevenueSharesAddUp | lib/mylib.py:287-288 | revenue shares add up to 100 when total revenue is non-zero; otherwise each share is 100 × revenue |
| Summary.SharesBounded | lib/mylib.py:274-288 | with no negative revenue every count share and revenue share is within 0..100 |
| Summary.LabelsRevenuePositive | lib/mylib.py:278 | customers with Frequency ≥ 1 and Monetary > 0 have positive revenue |
| Summary.SegmentRevenuePositive | lib/mylib.py:122-137 | every customer in the labelled output has positive revenue |
| Summary.CleanedRevenuePositive | lib/mylib.py:125-138 | when every cleaned sale is positive, every labelled customer has positive revenue |
| Summary.PipelineShares | lib/mylib.py:263-288 | on the labelled output, total revenue > 0 and both share columns add up to 100 |
| Labels.NatToDecimal | lib/mylib.py:316 | `str` of a natural number is a non-empty digit string without a leading zero |
| Labels.DecimalRoundTrip | lib/mylib.py:316 | reading the digits back gives the number |
| Labels.IntToDecimal | lib/mylib.py:316 | `str` of a non-negative integer is a digit string with no leading zero unless it is 0; of a negative one, '-' followed by digits |
| Labels.IntRoundTrip | lib/mylib.py:316 | the decimal text `str` gives for a cluster index reads back as that index, so the lookup key is injective (the helper behind `ClusterKeysDistinct`) |
| Labels.ClusterKeysDistinct | lib/mylib.py:316-317 | different clusters are looked up under different keys |
| Labels.Get | lib/mylib.py:317-320 | `dict.get` returns the entry when the key is present and the default otherwise |
| Labels.SuggestionFor | lib/mylib.py:316-320 | each field comes from the cluster's entry when present; otherwise it is "Cluster <id>", "No description" or "No suggestions" |
| Labels.SuggestActions | lib/mylib.py:315 | one suggestion per summary row |
| Labels.GuardRedundant | lib/mylib.py:317-320 | the `if label` test changes nothing: looking up an empty or missing entry gives the same defaults |
| Labels.SuggestionFields | lib/mylib.py:316-320 | each field comes from the cluster's entry when present; otherwise it is "Cluster <id>", "No description" or "No suggestions" |

## Left out

- Streamlit rendering is not modelled: cards, charts, tables, expanders, widgets and CSS. It is presentation only.
- The `st.error` calls in the `except` branches are not modelled. Each failing stage is modelled only by the empty result it returns.
- Loading the artifacts with `joblib`/`json` and the `st.cache_*` singletons is not modelled. The bins, the labels dictionary and the model are parameters.
- The internals of `scaler.transform` and `model.predict` are not modelled. They are one opaque row-wise function.
- pandas' text-to-number and text-to-date parsing is not modelled. A raw cell holds the parse outcome.
- Infinite TotalSales values are not modelled: sales are finite reals.
- Floating-point behaviour is not modelled: NaN inside the numeric columns, rounding of sums, and the display rounding and thousands formatting of lines 274, 288 and 291-294. Shares are exact reals.
- Cleaning.Truncate: the int64 range of `astype(int)` and of nanosecond timestamps is not modelled, because integers are unbounded.
- Time zones are not modelled: `.date()` is a floor division of UTC-free nanoseconds.
- Cleaning.CleanData: the `pd.DataFrame()` returned on an exception has no columns. The model represents it as a table with no rows.
- Labels.SuggestActions: label entries are dictionaries of text. Non-text JSON values and entries that are not dictionaries are not modelled.
- App.py is not part of this model. It contains the form, the upload, the CSV download and the inverse-distance pseudo-probabilities over the model's centres, which are numpy floating point.

=== FILE: cleaning.dfy ===
/** Transaction cleaning: `CustomerSegmentation.clean_data` (lib/mylib.py:75-86).

    The uploaded table is a `Frame` whose rows hold the three columns the
    pipeline reads plus the values of every other column.  The text-to-number
    and text-to-date parsing of pandas is not modelled: a raw cell already holds
    the outcome of `pd.to_numeric(errors='coerce')` / `pd.to_datetime(errors='coerce')`.
    Timestamps are integer nanoseconds, as in pandas. */
module Cleaning {
  import opened Wrappers
  import opened Grouping

  /** Outcome of `pd.to_numeric(..., errors='coerce')` on a CustomerID cell. */
  datatype IdCell =
    | Unparsed            // not a number: becomes NaN
    | Finite(value: real)
    | Infinite            // "inf" / "-inf": parses, but cannot be cast to int

  /** One uploaded row.  `invoiceDate` is None where `pd.to_datetime` gives NaT;
      `totalSales` is None where `pd.to_numeric` gives NaN. */
  datatype RawRow = RawRow(customerId: IdCell, invoiceDate: Option<int>, totalSales: Option<real>, extra: seq<string>)

  /** A row after the three coercions of lines 77-79: CustomerID is an int and
      TotalSales a float, neither can be missing any more; InvoiceDate still can. */
  datatype CoercedRow = CoercedRow(customerId: int, invoiceDate: Option<int>, totalSales: real, extra: seq<string>)

  /** A row that survived cleaning. */
  datatype Txn = Txn(customerId: int, invoiceDate: int, totalSales: real, extra: seq<string>)

  /** The uploaded DataFrame; `clean_data` overwrites its columns in place. */
  class Frame {
    var rows: seq<RawRow>

    constructor (rows: seq<RawRow>)
      ensures this.rows == rows
    {
      this.rows := rows;
    }
  }

  /** `astype(int)` on a float: truncation toward zero. */
  function Truncate(x: real): (n: int)
    ensures 0.0 <= x ==> n as real <= x < n as real + 1.0
    ensures x < 0.0 ==> n as real - 1.0 < x <= n as real
    ensures x == x.Floor as real ==> n == x.Floor
  {
    if x >= 0.0 then x.Floor else -((-x).Floor)
  }

  /** Line 77 raises (and nothing is written) when some CustomerID is infinite. */
  predicate HasInfiniteId(rows: seq<RawRow>) {
    exists i :: 0 <= i < |rows| && rows[i].customerId.Infinite?
  }

  /** Line 77: `to_numeric(...).fillna(0).astype(int)`. */
  function CoerceId(c: IdCell): (n: int)
    requires !c.Infinite?
    ensures c.Unparsed? ==> n == 0
    ensures c.Finite? && c.value == c.value.Floor as real ==> n == c.value.Floor
    ensures c.Finite? && 0.0 <= c.value ==> n as real <= c.value < n as real + 1.0
    ensures c.Finite? && c.value < 0.0 ==> n as real - 1.0 < c.value <= n as real
  {
    match c
    case Unparsed => 0
    case Finite(x) => Truncate(x)
  }

  /** Lines 77-79 on one row. */
  function Coerce(raw: RawRow): (r: CoercedRow)
    requires !raw.customerId.Infinite?
    ensures r.invoiceDate == raw.invoiceDate && r.extra == raw.extra
    ensures raw.totalSales.None? ==> r.totalSales == 0.0
    ensures raw.totalSales.Some? ==> r.totalSales == raw.totalSales.value
  {
    CoercedRow(CoerceId(raw.customerId), raw.invoiceDate, raw.totalSales.GetOr(0.0), raw.extra)
  }

  function CoerceAll(rows: seq<RawRow>): (c: seq<CoercedRow>)
    requires !HasInfiniteId(rows)
    ensures |c| == |rows|
  {
    seq(|rows|, i requires 0 <= i < |rows| => Coerce(rows[i]))
  }

  /** The coerced values as they stand in the caller's frame after lines 77-79. */
  function WrittenBack(rows: seq<RawRow>): (w: seq<RawRow>)
    requires !HasInfiniteId(rows)
    ensures |w| == |rows| && !HasInfiniteId(w)
    ensures forall i :: 0 <= i < |w| ==> !w[i].customerId.Infinite? && Coerce(w[i]) == Coerce(rows[i])
  {
    var w := seq(|rows|, i requires 0 <= i < |rows| => WriteBack(Coerce(rows[i])));
    forall i | 0 <= i < |w|
      ensures !w[i].customerId.Infinite? && Coerce(w[i]) == Coerce(rows[i])
    {
      WriteBackCoercesBack(Coerce(rows[i]));
    }
    w
  }

  /** A coerced row stored back into the frame's columns. */
  function WriteBack(c: CoercedRow): RawRow {
    RawRow(Finite(c.customerId as real), c.invoiceDate, Some(c.totalSales), c.extra)
  }

  /** Coercing a written-back row gives the coerced row again: the columns
      lines 77-79 store are already in coerced form. */
  lemma WriteBackCoercesBack(c: CoercedRow)
    ensures !WriteBack(c).customerId.Infinite?
    ensures Coerce(WriteBack(c)) == c
  {
    var x := c.customerId as real;
    assert x.Floor == c.customerId;
  }

  predicate HasDate(r: CoercedRow) { r.invoiceDate.Some? }

  predicate PositiveSales(r: CoercedRow) { r.totalSales > 0.0 }

  /** Lines 80-82 on the coerced rows: dropna on the three columns (only the date
      can still be missing), keep TotalSales > 0, drop exact duplicates. */
  function CleanedRows(rows: seq<RawRow>): (kept: seq<CoercedRow>)
    requires !HasInfiniteId(rows)
    ensures forall r :: r in kept <==> r in CoerceAll(rows) && r.invoiceDate.Some? && r.totalSales > 0.0
    ensures forall i :: 0 <= i < |kept| ==> HasDate(kept[i]) && PositiveSales(kept[i])
    ensures NoDuplicates(kept)
  {
    DropInvalid(CoerceAll(rows))
  }

  /** Lines 80-82 on any coerced table: the rows with a date and a positive
      sale, each distinct row once. */
  function DropInvalid(c: seq<CoercedRow>): (kept: seq<CoercedRow>)
    ensures forall r :: r in kept <==> r in c && HasDate(r) && PositiveSales(r)
    ensures forall i :: 0 <= i < |kept| ==> HasDate(kept[i]) && PositiveSales(kept[i])
    ensures NoDuplicates(kept)
  {
    var dated := Filter(c, HasDate);
    var positive := Filter(dated, PositiveSales);
    var kept := DropDuplicates(positive);
    assert forall i :: 0 <= i < |kept| ==> kept[i] in kept;
    kept
  }

  function ToTxn(r: CoercedRow): Txn
    requires r.invoiceDate.Some?
  {
    Txn(r.customerId, r.invoiceDate.value, r.totalSales, r.extra)
  }

  /** The kept rows with their (now certainly present) date unwrapped; distinct
      rows stay distinct. */
  function ToTxns(kept: seq<CoercedRow>): (out: seq<Txn>)
    requires forall i :: 0 <= i < |kept| ==> kept[i].invoiceDate.Some?
    ensures |out| == |kept|
    ensures forall i :: 0 <= i < |kept| ==> out[i] == ToTxn(kept[i])
    ensures NoDuplicates(kept) ==> NoDuplicates(out)
  {
    var out := seq(|kept|, i requires 0 <= i < |kept| => ToTxn(kept[i]));
    assert forall i, j :: 0 <= i < |kept| && 0 <= j < |kept| && out[i] == out[j] ==> kept[i] == kept[j];
    out
  }

  /** The table `clean_data` returns; an empty table when line 77 raises.
      Every returned row has a positive sale and no row is returned twice. */
  function Cleaned(rows: seq<RawRow>): (out: seq<Txn>)
    ensures forall i :: 0 <= i < |out| ==> out[i].totalSales > 0.0
    ensures NoDuplicates(out)
  {
    if HasInfiniteId(rows) then [] else ToTxns(CleanedRows(rows))
  }

  /** `clean_data(df)`: the caller's frame gets its three columns overwritten
      with the coerced values (unless line 77 raises), and the cleaned table is
      returned. */
  method CleanData(df: Frame) returns (cleaned: seq<Txn>)
    modifies df
    ensures cleaned == Cleaned(old(df.rows))
    ensures HasInfiniteId(old(df.rows)) ==> df.rows == old(df.rows)
    ensures !HasInfiniteId(old(df.rows)) ==> df.rows == WrittenBack(old(df.rows))
  {
    if HasInfiniteId(df.rows) {
      return [];
    }
    var raw := df.rows;
    df.rows := WrittenBack(raw);
    cleaned := ToTxns(CleanedRows(raw));
  }

  /** Cleaning only removes whole rows and keeps the others in order. */
  lemma CleanedRowsSubsequence(rows: seq<RawRow>)
    requires !HasInfiniteId(rows)
    ensures IsSubsequence(CleanedRows(rows), CoerceAll(rows))
  {
    var c := CoerceAll(rows);
    var dated := Filter(c, HasDate);
    var positive := Filter(dated, PositiveSales);
    SubsequenceTransitive(positive, dated, c);
    SubsequenceTransitive(DropDuplicates(positive), positive, c);
  }

  /** Cleaning yields nothing exactly when line 77 raises or no row has both a
      parsed date and a positive parsed sale. */
  lemma CleanedEmptyIff(rows: seq<RawRow>)
    ensures Cleaned(rows) == [] <==>
              HasInfiniteId(rows)
              || forall i :: 0 <= i < |rows| ==> rows[i].invoiceDate.None? || rows[i].totalSales.GetOr(0.0) <= 0.0
  {
    if !HasInfiniteId(rows) {
      var c := CoerceAll(rows);
      DropInvalidEmptyIff(c);
      forall i | 0 <= i < |rows|
        ensures HasDate(c[i]) && PositiveSales(c[i])
                <==> rows[i].invoiceDate.Some? && rows[i].totalSales.GetOr(0.0) > 0.0
      {
        assert c[i] == Coerce(rows[i]);
      }
    }
  }

  /** Filtering leaves nothing exactly when no row has both a date and a
      positive sale. */
  lemma DropInvalidEmptyIff(c: seq<CoercedRow>)
    ensures DropInvalid(c) == [] <==> forall i :: 0 <= i < |c| ==> !(HasDate(c[i]) && PositiveSales(c[i]))
  {
    var kept := DropInvalid(c);
    if kept != [] {
      assert kept[0] in c;
    } else {
      forall i | 0 <= i < |c|
        ensures !(HasDate(c[i]) && PositiveSales(c[i]))
      {
        assert c[i] in c;
      }
    }
  }

  /** A row survives cleaning exactly when its date parsed and its sale parsed
      to a positive number; an unparseable sale counts as 0 and is dropped. */
  lemma RowKeptIff(rows: seq<RawRow>, i: int)
    requires !HasInfiniteId(rows)
    requires 0 <= i < |rows|
    ensures Coerce(rows[i]) in CleanedRows(rows)
            <==> rows[i].invoiceDate.Some? && rows[i].totalSales.Some? && rows[i].totalSales.value > 0.0
  {
    assert Coerce(rows[i]) == CoerceAll(rows)[i];
  }

  /** An unparseable CustomerID does not drop the row: `fillna(0)` runs before
      `dropna`, so the row is kept under customer 0. */
  lemma UnparsedIdKeptAsZero(rows: seq<RawRow>, i: int)
    requires !HasInfiniteId(rows)
    requires 0 <= i < |rows|
    requires rows[i].customerId.Unparsed?
    requires rows[i].invoiceDate.Some? && rows[i].totalSales.Some? && rows[i].totalSales.value > 0.0
    ensures Txn(0, rows[i].invoiceDate.value, rows[i].totalSales.value, rows[i].extra) in Cleaned(rows)
  {
    RowKeptIff(rows, i);
    var kept := CleanedRows(rows);
    var j :| 0 <= j < |kept| && kept[j] == Coerce(rows[i]);
    assert Cleaned(rows)[j] == ToTxn(kept[j]);
  }

  /** Cleaning is idempotent on the caller's frame: after lines 77-79 have
      written the coerced columns back, cleaning the frame again coerces to the
      same rows and returns the same table. */
  lemma RecleanSame(rows: seq<RawRow>)
    requires !HasInfiniteId(rows)
    ensures !HasInfiniteId(WrittenBack(rows))
    ensures CoerceAll(WrittenBack(rows)) == CoerceAll(rows)
    ensures Cleaned(WrittenBack(rows)) == Cleaned(rows)
  {
    var w := WrittenBack(rows);
    assert forall i :: 0 <= i < |rows| ==> CoerceAll(w)[i] == CoerceAll(rows)[i];
  }
}

=== FILE: grouping.dfy ===
/** Table operations the pipeline borrows from pandas, stated over sequences of
    rows: boolean-mask filtering, drop_duplicates, the sorted keys of a groupby,
    the rows of one group, column sums and column maxima. */
module Grouping {

  /** `a` is `b` with zero or more rows removed and the others kept in order. */
  ghost predicate IsSubsequence<T>(a: seq<T>, b: seq<T>)
    decreases |b|
  {
    if a == [] then true
    else if b == [] then false
    else (a[0] == b[0] && IsSubsequence(a[1..], b[1..])) || IsSubsequence(a, b[1..])
  }

  lemma {:induction false} SubsequenceTransitive<T>(a: seq<T>, b: seq<T>, c: seq<T>)
    requires IsSubsequence(a, b) && IsSubsequence(b, c)
    ensures IsSubsequence(a, c)
    decreases |c|
  {
    if a != [] {
      if IsSubsequence(b, c[1..]) {
        SubsequenceTransitive(a, b, c[1..]);
      } else {
        assert b[0] == c[0] && IsSubsequence(b[1..], c[1..]);
        if a[0] == b[0] && IsSubsequence(a[1..], b[1..]) {
          SubsequenceTransitive(a[1..], b[1..], c[1..]);
        } else {
          SubsequenceTransitive(a, b[1..], c[1..]);
        }
      }
    }
  }

  ghost predicate NoDuplicates<T>(s: seq<T>) {
    forall i, j :: 0 <= i < j < |s| ==> s[i] != s[j]
  }

  /** `df[mask]`: the rows that satisfy `keep`, in their original order. */
  function Filter<T(!new)>(xs: seq<T>, keep: T -> bool): (r: seq<T>)
    ensures |r| <= |xs|
    ensures forall i :: 0 <= i < |r| ==> keep(r[i])
    ensures forall x :: x in r <==> x in xs && keep(x)
    ensures IsSubsequence(r, xs)
  {
    if xs == [] then []
    else if keep(xs[0]) then [xs[0]] + Filter(xs[1..], keep)
    else Filter(xs[1..], keep)
  }

  /** A filter keeps every copy of each row that satisfies the mask and no copy
      of any other row.  (Stated apart from `Filter`'s contract: a multiset
      quantifier there would burden every caller's proof.) */
  lemma {:induction false} FilterKeepsEveryCopy<T(!new)>(xs: seq<T>, keep: T -> bool)
    ensures forall x :: multiset(Filter(xs, keep))[x] == if keep(x) then multiset(xs)[x] else 0
    decreases |xs|
  {
    if xs != [] {
      FilterKeepsEveryCopy(xs[1..], keep);
      assert xs == [xs[0]] + xs[1..];
    }
  }

  /** `drop_duplicates()` with its default keep='first': scanning left to right,
      a row is dropped when an identical row was already kept. */
  function DropDuplicates<T(==,!new)>(xs: seq<T>): (r: seq<T>)
    ensures NoDuplicates(r)
    ensures forall x :: x in r <==> x in xs
    ensures IsSubsequence(r, xs)
    ensures FirstOccurrenceOrder(r, xs)
  {
    KeepUnseenFirstOrder(xs, {});
    KeepUnseen(xs, {})
  }

  /** Every row of `r` first occurs in `xs` before any occurrence of the rows
      after it: the order in which keep='first' leaves the survivors. */
  ghost predicate FirstOccurrenceOrder<T>(r: seq<T>, xs: seq<T>) {
    forall i, j, q :: 0 <= i < j < |r| && 0 <= q < |xs| && xs[q] == r[j] ==>
      exists p :: 0 <= p < q && xs[p] == r[i]
  }

  function KeepUnseen<T(==,!new)>(xs: seq<T>, seen: set<T>): (r: seq<T>)
    ensures NoDuplicates(r)
    ensures forall x :: x in r <==> x in xs && x !in seen
    ensures IsSubsequence(r, xs)
  {
    if xs == [] then []
    else if xs[0] in seen then KeepUnseen(xs[1..], seen)
    else [xs[0]] + KeepUnseen(xs[1..], seen + {xs[0]})
  }

  lemma KeepUnseenFirstOrder<T(!new)>(xs: seq<T>, seen: set<T>)
    ensures FirstOccurrenceOrder(KeepUnseen(xs, seen), xs)
  {
    var r := KeepUnseen(xs, seen);
    forall i, j, q | 0 <= i < j < |r| && 0 <= q < |xs| && xs[q] == r[j]
      ensures exists p :: 0 <= p < q && xs[p] == r[i]
    {
      KeptBefore(xs, seen, i, j, q);
    }
  }

  /** One instance: row i of the survivors occurs in `xs` before position q,
      which holds a copy of the later survivor j. */
  lemma {:induction false} KeptBefore<T(!new)>(xs: seq<T>, seen: set<T>, i: int, j: int, q: int)
    requires 0 <= i < j < |KeepUnseen(xs, seen)| && 0 <= q < |xs|
    requires xs[q] == KeepUnseen(xs, seen)[j]
    ensures exists p :: 0 <= p < q && xs[p] == KeepUnseen(xs, seen)[i]
    decreases |xs|
  {
    var tail := xs[1..];
    var r := KeepUnseen(xs, seen);
    if xs[0] in seen {
      var rest := KeepUnseen(tail, seen);
      assert r == rest;
      assert r[j] in rest;
      assert q != 0;
      assert tail[q - 1] == rest[j];
      KeptBefore(tail, seen, i, j, q - 1);
      var p :| 0 <= p < q - 1 && tail[p] == rest[i];
      assert xs[p + 1] == r[i];
    } else {
      var rest := KeepUnseen(tail, seen + {xs[0]});
      assert r == [xs[0]] + rest;
      assert r[j] == rest[j - 1] && r[j] in rest;
      assert q != 0;
      if i == 0 {
        assert xs[0] == r[i];
      } else {
        assert tail[q - 1] == rest[j - 1];
        KeptBefore(tail, seen + {xs[0]}, i - 1, j - 1, q - 1);
        var p :| 0 <= p < q - 1 && tail[p] == rest[i - 1];
        assert xs[p + 1] == r[i];
      }
    }
  }

  predicate StrictlyIncreasing(s: seq<int>) {
    forall i, j :: 0 <= i < j < |s| ==> s[i] < s[j]
  }

  function InsertSorted(x: int, s: seq<int>): (r: seq<int>)
    requires StrictlyIncreasing(s)
    ensures StrictlyIncreasing(r)
    ensures forall y :: y in r <==> y == x || y in s
  {
    if s == [] then [x]
    else if x < s[0] then [x] + s
    else if x == s[0] then s
    else
      assert StrictlyIncreasing(s[1..]);
      var rest := InsertSorted(x, s[1..]);
      HeadBelowTail(s);
      assert forall i :: 0 <= i < |rest| ==> rest[i] in rest;
      [s[0]] + rest
  }

  lemma HeadBelowTail(s: seq<int>)
    requires StrictlyIncreasing(s) && |s| > 0
    ensures forall y :: y in s[1..] ==> s[0] < y
  {
    forall y | y in s[1..]
      ensures s[0] < y
    {
      var j :| 0 <= j < |s[1..]| && s[1..][j] == y;
      assert s[j + 1] == y;
    }
  }

  /** The keys of `groupby(key)` (sort=True, the default): every key that occurs,
      once each, in ascending order. */
  function SortedKeys<T>(xs: seq<T>, key: T -> int): (ks: seq<int>)
    ensures StrictlyIncreasing(ks)
    ensures forall i :: 0 <= i < |xs| ==> key(xs[i]) in ks
    ensures forall k :: k in ks ==> exists i :: 0 <= i < |xs| && key(xs[i]) == k
  {
    if xs == [] then []
    else
      var rest := SortedKeys(xs[1..], key);
      var ks := InsertSorted(key(xs[0]), rest);
      assert forall i :: 1 <= i < |xs| ==> key(xs[i]) == key(xs[1..][i - 1]);
      ks
  }

  /** The rows of the group whose key is `k`, in their original order, every
      copy kept.  This is `Filter` with the mask `key(x) == k` (`GroupIsFilter`);
      it keeps its own recursion so that the per-group sum lemmas can unfold it
      on the key alone, without a mask closure to match.  That every copy is
      kept is `GroupKeepsEveryCopy`. */
  function Group<T(!new)>(xs: seq<T>, key: T -> int, k: int): (g: seq<T>)
    ensures forall i :: 0 <= i < |g| ==> key(g[i]) == k
    ensures forall x :: x in g <==> x in xs && key(x) == k
    ensures IsSubsequence(g, xs)
  {
    if xs == [] then []
    else if key(xs[0]) == k then [xs[0]] + Group(xs[1..], key, k)
    else Group(xs[1..], key, k)
  }

  lemma {:induction false} GroupIsFilter<T(!new)>(xs: seq<T>, key: T -> int, k: int)
    ensures Group(xs, key, k) == Filter(xs, x => key(x) == k)
    decreases |xs|
  {
    if xs != [] {
      GroupIsFilter(xs[1..], key, k);
    }
  }

  /** A group holds every copy of each row with its key, and no other row. */
  lemma GroupKeepsEveryCopy<T(!new)>(xs: seq<T>, key: T -> int, k: int)
    ensures forall x :: multiset(Group(xs, key, k))[x] == if key(x) == k then multiset(xs)[x] else 0
  {
    GroupIsFilter(xs, key, k);
    FilterKeepsEveryCopy(xs, x => key(x) == k);
  }

  /** Every key that `SortedKeys` reports has at least one row. */
  lemma KeyGroupNonEmpty<T(!new)>(xs: seq<T>, key: T -> int, k: int)
    requires k in SortedKeys(xs, key)
    ensures |Group(xs, key, k)| >= 1
  {
    var i :| 0 <= i < |xs| && key(xs[i]) == k;
    assert xs[i] in xs;
    assert xs[i] in Group(xs, key, k);
  }

  /** Column sum. */
  function Sum<T>(xs: seq<T>, f: T -> real): real {
    if xs == [] then 0.0 else f(xs[0]) + Sum(xs[1..], f)
  }

  /** Column maximum; defined for a non-empty column. */
  function MaxBy<T>(xs: seq<T>, f: T -> int): (m: int)
    requires |xs| > 0
    ensures forall i :: 0 <= i < |xs| ==> f(xs[i]) <= m
    ensures exists i :: 0 <= i < |xs| && f(xs[i]) == m
  {
    if |xs| == 1 then f(xs[0])
    else
      var rest := MaxBy(xs[1..], f);
      assert forall i :: 1 <= i < |xs| ==> f(xs[i]) == f(xs[1..][i - 1]);
      if f(xs[0]) < rest then rest else f(xs[0])
  }

  /** The per-group sums of `f` over the groups `ks`, added up. */
  function GroupedSum<T(!new)>(xs: seq<T>, key: T -> int, f: T -> real, ks: seq<int>): real {
    if ks == [] then 0.0 else Sum(Group(xs, key, ks[0]), f) + GroupedSum(xs, key, f, ks[1..])
  }

  lemma {:induction false} GroupedSumOfNoRows<T(!new)>(key: T -> int, f: T -> real, ks: seq<int>)
    ensures GroupedSum([], key, f, ks) == 0.0
  {
    if ks != [] {
      GroupedSumOfNoRows(key, f, ks[1..]);
    }
  }

  /** Adding one row in front adds its value to exactly the group of its key. */
  lemma {:induction false} GroupedSumCons<T(!new)>(x: T, rest: seq<T>, key: T -> int, f: T -> real, ks: seq<int>)
    requires StrictlyIncreasing(ks)
    ensures GroupedSum([x] + rest, key, f, ks)
            == (if key(x) in ks then f(x) else 0.0) + GroupedSum(rest, key, f, ks)
  {
    if ks != [] {
      var xs := [x] + rest;
      assert xs[0] == x && xs[1..] == rest;
      assert StrictlyIncreasing(ks[1..]);
      GroupedSumCons(x, rest, key, f, ks[1..]);
      if key(x) == ks[0] {
        var g := Group(xs, key, ks[0]);
        assert g == [x] + Group(rest, key, ks[0]);
        assert g[0] == x && g[1..] == Group(rest, key, ks[0]);
        assert key(x) !in ks[1..];
      } else {
        assert key(x) in ks <==> key(x) in ks[1..];
      }
    }
  }

  /** Splitting a table into groups loses and duplicates nothing: when every row's
      key is among the distinct keys `ks`, the per-group sums add up to the
      column sum. */
  lemma {:induction false} GroupedSumTotal<T(!new)>(xs: seq<T>, key: T -> int, f: T -> real, ks: seq<int>)
    requires StrictlyIncreasing(ks)
    requires forall i :: 0 <= i < |xs| ==> key(xs[i]) in ks
    ensures GroupedSum(xs, key, f, ks) == Sum(xs, f)
  {
    if xs == [] {
      GroupedSumOfNoRows(key, f, ks);
    } else {
      assert xs == [xs[0]] + xs[1..];
      assert key(xs[0]) in ks;
      GroupedSumCons(xs[0], xs[1..], key, f, ks);
      GroupedSumTotal(xs[1..], key, f, ks);
    }
  }

  /** A table with one row per group, whose column `g` holds the group's sum of
      `f`, has the same column sum as the grouped table. */
  lemma {:induction false} PerGroupColumnSum<T(!new), R>(
    rs: seq<R>, g: R -> real, xs: seq<T>, key: T -> int, f: T -> real, ks: seq<int>)
    requires |rs| == |ks|
    requires forall i :: 0 <= i < |rs| ==> g(rs[i]) == Sum(Group(xs, key, ks[i]), f)
    ensures Sum(rs, g) == GroupedSum(xs, key, f, ks)
  {
    if rs != [] {
      assert forall i :: 0 <= i < |rs[1..]| ==> rs[1..][i] == rs[i + 1] && ks[1..][i] == ks[i + 1];
      PerGroupColumnSum(rs[1..], g, xs, key, f, ks[1..]);
    }
  }

  /** Sum of a column of ones is the row count. */
  lemma {:induction false} SumOfOnes<T>(xs: seq<T>, one: T -> real)
    requires forall i :: 0 <= i < |xs| ==> one(xs[i]) == 1.0
    ensures Sum(xs, one) == |xs| as real
  {
    if xs != [] {
      assert forall i :: 0 <= i < |xs[1..]| ==> xs[1..][i] == xs[i + 1];
      SumOfOnes(xs[1..], one);
    }
  }

  /** A non-empty column of positive values has a positive sum. */
  lemma {:induction false} SumPositive<T>(xs: seq<T>, f: T -> real)
    requires |xs| > 0
    requires forall i :: 0 <= i < |xs| ==> f(xs[i]) > 0.0
    ensures Sum(xs, f) > 0.0
  {
    if |xs| > 1 {
      assert forall i :: 0 <= i < |xs[1..]| ==> xs[1..][i] == xs[i + 1];
      SumPositive(xs[1..], f);
    }
  }

  /** A column of non-negative values has a non-negative sum. */
  lemma {:induction false} SumNonNegative<T>(xs: seq<T>, f: T -> real)
    requires forall i :: 0 <= i < |xs| ==> f(xs[i]) >= 0.0
    ensures Sum(xs, f) >= 0.0
  {
    if xs != [] {
      assert forall i :: 0 <= i < |xs[1..]| ==> xs[1..][i] == xs[i + 1];
      SumNonNegative(xs[1..], f);
    }
  }

  /** Every value of a non-negative column is at most the column sum. */
  lemma {:induction false} SumBoundsEach<T>(xs: seq<T>, f: T -> real, j: int)
    requires 0 <= j < |xs|
    requires forall i :: 0 <= i < |xs| ==> f(xs[i]) >= 0.0
    ensures f(xs[j]) <= Sum(xs, f)
  {
    assert forall i :: 0 <= i < |xs[1..]| ==> xs[1..][i] == xs[i + 1];
    SumNonNegative(xs[1..], f);
    if j > 0 {
      SumBoundsEach(xs[1..], f, j - 1);
    }
  }

  /** A column computed as `h / d * 100` sums to the sum of `h`, divided by `d`, times 100. */
  lemma {:induction false} SumOfPercentages<R>(rs: seq<R>, g: R -> real, h: R -> real, d: real)
    requires d != 0.0
    requires forall i :: 0 <= i < |rs| ==> g(rs[i]) == h(rs[i]) / d * 100.0
    ensures Sum(rs, g) == Sum(rs, h) / d * 100.0
  {
    if rs != [] {
      assert forall i :: 0 <= i < |rs[1..]| ==> rs[1..][i] == rs[i + 1];
      SumOfPercentages(rs[1..], g, h, d);
      var a, s := h(rs[0]), Sum(rs[1..], h);
      assert a / d * 100.0 + s / d * 100.0 == (a + s) / d * 100.0;
    }
  }

  lemma DivSelf(d: real)
    requires d != 0.0
    ensures d / d * 100.0 == 100.0
  {
  }

  /** Percentages of a column's own total add up to 100. */
  lemma PercentagesOfTotal<R>(rs: seq<R>, g: R -> real, h: R -> real, d: real)
    requires d != 0.0 && Sum(rs, h) == d
    requires forall i :: 0 <= i < |rs| ==> g(rs[i]) == h(rs[i]) / d * 100.0
    ensures Sum(rs, g) == 100.0
  {
    SumOfPercentages(rs, g, h, d);
    DivSelf(d);
  }
}

=== FILE: labels.dfy ===
/** The label lookup of `SegmentationVisualizer.suggest_actions`
    (lib/mylib.py:315-320): for every summary row, the cluster index is turned
    into its decimal text, looked up in the cluster-labels dictionary, and the
    name, description and suggested actions are read from the entry found, with
    defaults for whatever is missing.  The labels dictionary is a parameter; its
    entries are dictionaries from field name to text. */
module Labels {
  import opened Summary

  /** What the expander of one cluster shows: its title, description and
      suggestions. */
  datatype Suggestion = Suggestion(name: string, description: string, traits: string)

  function Digit(d: nat): (c: char)
    requires d < 10
    ensures '0' <= c <= '9'
  {
    (48 + d) as char
  }

  predicate AllDigits(s: string) {
    forall i :: 0 <= i < |s| ==> '0' <= s[i] <= '9'
  }

  /** `str(n)` for a non-negative integer. */
  function NatToDecimal(n: nat): (s: string)
    ensures |s| >= 1 && AllDigits(s)
    ensures s[0] == '0' ==> n == 0
    decreases n
  {
    if n < 10 then [Digit(n)] else NatToDecimal(n / 10) + [Digit(n % 10)]
  }

  /** `str(i)` for any integer: a minus sign in front of negative numbers. */
  function IntToDecimal(i: int): (s: string)
    ensures |s| >= 1
    ensures i >= 0 ==> AllDigits(s) && (s[0] == '0' ==> i == 0)
    ensures i < 0 ==> |s| >= 2 && s[0] == '-' && AllDigits(s[1..])
  {
    if i < 0 then
      var digits := NatToDecimal(-i);
      assert (['-'] + digits)[1..] == digits;
      ['-'] + digits
    else NatToDecimal(i)
  }

  /** The value a string of decimal digits denotes. */
  function DecimalValue(s: string): nat
    requires AllDigits(s)
  {
    if s == [] then 0
    else
      var init := s[..|s| - 1];
      assert forall i :: 0 <= i < |init| ==> init[i] == s[i];
      assert '0' <= s[|s| - 1];
      DecimalValue(init) * 10 + (s[|s| - 1] as int - 48)
  }

  /** `int(s)` on what `IntToDecimal` produces. */
  function ParseInt(s: string): int
    requires |s| >= 1
    requires s[0] == '-' ==> AllDigits(s[1..])
    requires s[0] != '-' ==> AllDigits(s)
  {
    if s[0] == '-' then -(DecimalValue(s[1..]) as int) else DecimalValue(s)
  }

  lemma {:induction false} DecimalRoundTrip(n: nat)
    ensures DecimalValue(NatToDecimal(n)) == n
    decreases n
  {
    if n >= 10 {
      var s := NatToDecimal(n / 10);
      var t := s + [Digit(n % 10)];
      assert t[..|t| - 1] == s;
      DecimalRoundTrip(n / 10);
    }
  }

  /** Reading the decimal text back gives the integer. */
  lemma IntRoundTrip(i: int)
    ensures ParseInt(IntToDecimal(i)) == i
  {
    if i < 0 {
      var digits := NatToDecimal(-i);
      var t := ['-'] + digits;
      assert t[0] == '-' && t[1..] == digits;
      DecimalRoundTrip(-i);
    } else {
      var digits := NatToDecimal(i);
      assert digits[0] != '-';
      DecimalRoundTrip(i);
    }
  }

  /** Different clusters are looked up under different keys. */
  lemma ClusterKeysDistinct(a: int, b: int)
    requires a != b
    ensures IntToDecimal(a) != IntToDecimal(b)
  {
    IntRoundTrip(a);
    IntRoundTrip(b);
  }

  /** `d.get(key, default)`. */
  function Get(d: map<string, string>, key: string, default: string): (v: string)
    ensures key in d ==> v == d[key]
    ensures key !in d ==> v == default
  {
    if key in d then d[key] else default
  }

  /** The title used when a cluster has no name. */
  function DefaultName(key: string): string {
    "Cluster " + key
  }

  /** Lines 316-320 for one cluster: the entry is used only when it exists and
      is not empty (`if label`); every field falls back to its default. */
  function SuggestionFor(cluster: int, labels: map<string, map<string, string>>): (s: Suggestion)
    ensures var key := IntToDecimal(cluster);
            && (key in labels && "name" in labels[key] ==> s.name == labels[key]["name"])
            && (key in labels && "desc" in labels[key] ==> s.description == labels[key]["desc"])
            && (key in labels && "traits" in labels[key] ==> s.traits == labels[key]["traits"])
            && (key !in labels || "name" !in labels[key] ==> s.name == "Cluster " + key)
            && (key !in labels || "desc" !in labels[key] ==> s.description == "No description")
            && (key !in labels || "traits" !in labels[key] ==> s.traits == "No suggestions")
  {
    var key := IntToDecimal(cluster);
    var found := key in labels && |labels[key]| > 0;
    Suggestion(
      if found then Get(labels[key], "name", DefaultName(key)) else DefaultName(key),
      if found then Get(labels[key], "desc", "No description") else "No description",
      if found then Get(labels[key], "traits", "No suggestions") else "No suggestions")
  }

  /** Line 315: one suggestion per summary row, in the summary's order. */
  function SuggestActions(summary: seq<ClusterStats>, labels: map<string, map<string, string>>): (r: seq<Suggestion>)
    ensures |r| == |summary|
  {
    seq(|summary|, i requires 0 <= i < |summary| => SuggestionFor(summary[i].cluster, labels))
  }

  /** The `if label` guard changes nothing: looking every field up in the entry,
      or in an empty entry when there is none, gives the same suggestion. */
  lemma GuardRedundant(cluster: int, labels: map<string, map<string, string>>)
    ensures var key := IntToDecimal(cluster);
            var entry := if key in labels then labels[key] else map[];
            SuggestionFor(cluster, labels)
            == Suggestion(Get(entry, "name", DefaultName(key)),
                          Get(entry, "desc", "No description"),
                          Get(entry, "traits", "No suggestions"))
  {
  }

  /** Each field comes from the cluster's own entry when the entry has it, and
      is the default otherwise. */
  lemma SuggestionFields(summary: seq<ClusterStats>, labels: map<string, map<string, string>>, i: int)
    requires 0 <= i < |summary|
    ensures var key := IntToDecimal(summary[i].cluster);
            var s := SuggestActions(summary, labels)[i];
            && (key in labels && "name" in labels[key] ==> s.name == labels[key]["name"])
            && (key in labels && "desc" in labels[key] ==> s.description == labels[key]["desc"])
            && (key in labels && "traits" in labels[key] ==> s.traits == labels[key]["traits"])
            && (key !in labels || "name" !in labels[key] ==> s.name == "Cluster " + key)
            && (key !in labels || "desc" !in labels[key] ==> s.description == "No description")
            && (key !in labels || "traits" !in labels[key] ==> s.traits == "No suggestions")
  {
    GuardRedundant(summary[i].cluster, labels);
  }
}

=== FILE: rfm.dfy ===
/** Per-customer RFM aggregation: `CustomerSegmentation.calculate_rfm`
    (lib/mylib.py:88-100). */
module Rfm {
  import opened Grouping
  import opened Cleaning

  /** pandas timestamps count nanoseconds. */
  const NanosPerDay: int := 86_400_000_000_000

  /** `Timestamp.date()`: the calendar day a timestamp falls on, as a day
      number (floor division, so also right before 1970). */
  function Day(stamp: int): (d: int)
    ensures d * NanosPerDay <= stamp < d * NanosPerDay + NanosPerDay
  {
    stamp / NanosPerDay
  }

  /** One row of the table `calculate_rfm` returns. */
  datatype RfmRecord = RfmRecord(customerId: int, recency: int, frequency: nat, monetary: real)

  function StampOf(t: Txn): int { t.invoiceDate }
  function DayOf(t: Txn): int { Day(t.invoiceDate) }
  function CustomerOf(t: Txn): int { t.customerId }
  function SalesOf(t: Txn): real { t.totalSales }
  function OneOf(t: Txn): real { 1.0 }

  function FrequencyOf(r: RfmRecord): real { r.frequency as real }
  function MonetaryOf(r: RfmRecord): real { r.monetary }

  /** Line 90: `df['InvoiceDate'].max().date()`. */
  function ReferenceDay(txns: seq<Txn>): (d: int)
    requires |txns| > 0
    ensures forall k :: 0 <= k < |txns| ==> DayOf(txns[k]) <= d
    ensures exists k :: 0 <= k < |txns| && DayOf(txns[k]) == d
  {
    DaysBelowMax(txns);
    Day(MaxBy(txns, StampOf))
  }

  /** No row falls on a later day than the latest timestamp. */
  lemma DaysBelowMax(txns: seq<Txn>)
    requires |txns| > 0
    ensures forall k :: 0 <= k < |txns| ==> DayOf(txns[k]) <= Day(MaxBy(txns, StampOf))
  {
    forall k | 0 <= k < |txns|
      ensures DayOf(txns[k]) <= Day(MaxBy(txns, StampOf))
    {
      DayMonotone(StampOf(txns[k]), MaxBy(txns, StampOf));
    }
  }

  /** The groupby keys of line 91: the distinct CustomerIDs, ascending. */
  function CustomerIds(txns: seq<Txn>): seq<int> {
    SortedKeys(txns, CustomerOf)
  }

  /** The rows of one customer. */
  function Purchases(txns: seq<Txn>, c: int): seq<Txn> {
    Group(txns, CustomerOf, c)
  }

  /** The aggregates of lines 92-94 for one customer. */
  function Aggregate(txns: seq<Txn>, c: int, referenceDay: int): (r: RfmRecord)
    requires c in CustomerIds(txns)
    ensures r.customerId == c && r.frequency >= 1
    ensures forall k :: 0 <= k < |txns| && txns[k].customerId == c ==> r.recency <= referenceDay - DayOf(txns[k])
    ensures exists k :: 0 <= k < |txns| && txns[k].customerId == c && r.recency == referenceDay - DayOf(txns[k])
  {
    KeyGroupNonEmpty(txns, CustomerOf, c);
    OwnLatestDay(txns, c);
    var p := Purchases(txns, c);
    RfmRecord(c, referenceDay - Day(MaxBy(p, StampOf)), |p|, Sum(p, SalesOf))
  }

  /** `calculate_rfm(df)`: one row per customer, in ascending CustomerID order.
      On an empty table pandas produces an empty result (or raises, which the
      method turns into an empty table), so both give []. */
  function CalculateRfm(txns: seq<Txn>): (rfm: seq<RfmRecord>)
    ensures |rfm| == |CustomerIds(txns)|
  {
    if txns == [] then []
    else
      var ids := CustomerIds(txns);
      var referenceDay := ReferenceDay(txns);
      seq(|ids|, i requires 0 <= i < |ids| => Aggregate(txns, ids[i], referenceDay))
  }

  /** A non-empty table has at least one customer, and every row of the result
      is the aggregate of the customer at the same position of the sorted ids. */
  lemma RfmRowsAreAggregates(txns: seq<Txn>)
    ensures txns != [] ==> CalculateRfm(txns) != []
    ensures forall i :: 0 <= i < |CalculateRfm(txns)| ==> CalculateRfm(txns)[i].customerId == CustomerIds(txns)[i]
    ensures forall i :: 0 <= i < |CalculateRfm(txns)| ==>
              CalculateRfm(txns)[i] == Aggregate(txns, CustomerIds(txns)[i], ReferenceDay(txns))
  {
    if txns != [] {
      assert CustomerOf(txns[0]) in CustomerIds(txns);
    }
  }

  /** The day of a customer's latest purchase is the latest day among the
      customer's rows. */
  lemma OwnLatestDay(txns: seq<Txn>, c: int)
    requires c in CustomerIds(txns)
    ensures |Purchases(txns, c)| > 0
    ensures forall k :: 0 <= k < |txns| && txns[k].customerId == c ==>
              DayOf(txns[k]) <= Day(MaxBy(Purchases(txns, c), StampOf))
    ensures exists k :: 0 <= k < |txns| && txns[k].customerId == c
                        && DayOf(txns[k]) == Day(MaxBy(Purchases(txns, c), StampOf))
  {
    LatestPurchase(txns, c);
    forall k | 0 <= k < |txns| && txns[k].customerId == c
      ensures DayOf(txns[k]) <= Day(MaxBy(Purchases(txns, c), StampOf))
    {
      NoLaterPurchase(txns, c, k);
      DayMonotone(txns[k].invoiceDate, MaxBy(Purchases(txns, c), StampOf));
    }
  }

  lemma DayMonotone(a: int, b: int)
    requires a <= b
    ensures Day(a) <= Day(b)
  {
  }

  /** Truncating to the day after taking the maximum (what line 90 does) gives
      the same day as taking the latest day of all rows. */
  lemma TruncateAfterMax(txns: seq<Txn>)
    requires |txns| > 0
    ensures ReferenceDay(txns) == MaxBy(txns, DayOf)
  {
    var m := MaxBy(txns, StampOf);
    var d := MaxBy(txns, DayOf);
    var i :| 0 <= i < |txns| && StampOf(txns[i]) == m;
    assert DayOf(txns[i]) <= d;
    var j :| 0 <= j < |txns| && DayOf(txns[j]) == d;
    DayMonotone(StampOf(txns[j]), m);
  }

  /** Every customer of the input has a row. */
  lemma CustomerHasRow(txns: seq<Txn>, k: int)
    requires 0 <= k < |txns|
    ensures exists i :: 0 <= i < |CalculateRfm(txns)| && CalculateRfm(txns)[i].customerId == txns[k].customerId
  {
    var ids := CustomerIds(txns);
    RfmRowsAreAggregates(txns);
    assert CustomerOf(txns[k]) in ids;
    var i :| 0 <= i < |ids| && ids[i] == CustomerOf(txns[k]);
    assert CalculateRfm(txns)[i].customerId == txns[k].customerId;
  }

  /** Every row belongs to a customer of the input. */
  lemma RowHasCustomer(txns: seq<Txn>, i: int)
    requires 0 <= i < |CalculateRfm(txns)|
    ensures exists k :: 0 <= k < |txns| && txns[k].customerId == CalculateRfm(txns)[i].customerId
  {
    var ids := CustomerIds(txns);
    RfmRowsAreAggregates(txns);
    assert ids[i] in ids;
    var k :| 0 <= k < |txns| && CustomerOf(txns[k]) == ids[i];
  }

  /** The rows come in strictly ascending CustomerID order, so no customer has
      two rows. */
  lemma RfmAscending(txns: seq<Txn>)
    ensures forall i, j :: 0 <= i < j < |CalculateRfm(txns)| ==>
              CalculateRfm(txns)[i].customerId < CalculateRfm(txns)[j].customerId
  {
    RfmRowsAreAggregates(txns);
  }

  /** Every customer has at least one purchase; when every sale is positive (as
      cleaning guarantees), so is every Monetary. */
  lemma FrequencyAndMonetaryPositive(txns: seq<Txn>)
    ensures forall i :: 0 <= i < |CalculateRfm(txns)| ==> CalculateRfm(txns)[i].frequency >= 1
    ensures (forall k :: 0 <= k < |txns| ==> txns[k].totalSales > 0.0) ==>
              forall i :: 0 <= i < |CalculateRfm(txns)| ==> CalculateRfm(txns)[i].monetary > 0.0
  {
    var rfm := CalculateRfm(txns);
    var ids := CustomerIds(txns);
    forall i | 0 <= i < |rfm|
      ensures rfm[i].frequency >= 1
      ensures (forall k :: 0 <= k < |txns| ==> txns[k].totalSales > 0.0) ==> rfm[i].monetary > 0.0
    {
      var p := Purchases(txns, ids[i]);
      KeyGroupNonEmpty(txns, CustomerOf, ids[i]);
      if forall k :: 0 <= k < |txns| ==> txns[k].totalSales > 0.0 {
        forall j | 0 <= j < |p|
          ensures SalesOf(p[j]) > 0.0
        {
          assert p[j] in txns;
        }
        SumPositive(p, SalesOf);
      }
    }
  }

  /** The Frequencies add up to the number of rows. */
  lemma FrequencyTotal(txns: seq<Txn>)
    ensures Sum(CalculateRfm(txns), FrequencyOf) == |txns| as real
  {
    var rfm := CalculateRfm(txns);
    var ids := CustomerIds(txns);
    if txns != [] {
      forall i | 0 <= i < |rfm|
        ensures FrequencyOf(rfm[i]) == Sum(Group(txns, CustomerOf, ids[i]), OneOf)
      {
        SumOfOnes(Group(txns, CustomerOf, ids[i]), OneOf);
      }
      PerGroupColumnSum(rfm, FrequencyOf, txns, CustomerOf, OneOf, ids);
      GroupedSumTotal(txns, CustomerOf, OneOf, ids);
      SumOfOnes(txns, OneOf);
    }
  }

  /** The Monetary values add up to the total of all sales. */
  lemma MonetaryTotal(txns: seq<Txn>)
    ensures Sum(CalculateRfm(txns), MonetaryOf) == Sum(txns, SalesOf)
  {
    var ids := CustomerIds(txns);
    if txns != [] {
      PerGroupColumnSum(CalculateRfm(txns), MonetaryOf, txns, CustomerOf, SalesOf, ids);
      GroupedSumTotal(txns, CustomerOf, SalesOf, ids);
    }
  }

  /** A customer's latest purchase is no later than the latest of all rows and
      is one of the customer's rows. */
  lemma LatestPurchase(txns: seq<Txn>, c: int)
    requires c in CustomerIds(txns)
    ensures |Purchases(txns, c)| > 0
    ensures MaxBy(Purchases(txns, c), StampOf) <= MaxBy(txns, StampOf)
    ensures exists k :: 0 <= k < |txns| && txns[k].customerId == c
                        && txns[k].invoiceDate == MaxBy(Purchases(txns, c), StampOf)
  {
    KeyGroupNonEmpty(txns, CustomerOf, c);
    var p := Purchases(txns, c);
    var last := MaxBy(p, StampOf);
    var j :| 0 <= j < |p| && StampOf(p[j]) == last;
    assert p[j] in txns;
    var kj :| 0 <= kj < |txns| && txns[kj] == p[j];
    assert StampOf(txns[kj]) <= MaxBy(txns, StampOf);
  }

  /** No row of the customer is later than the customer's latest purchase. */
  lemma NoLaterPurchase(txns: seq<Txn>, c: int, k: int)
    requires c in CustomerIds(txns)
    requires 0 <= k < |txns| && txns[k].customerId == c
    ensures |Purchases(txns, c)| > 0
    ensures txns[k].invoiceDate <= MaxBy(Purchases(txns, c), StampOf)
  {
    KeyGroupNonEmpty(txns, CustomerOf, c);
    var p := Purchases(txns, c);
    assert txns[k] in p;
    var jk :| 0 <= jk < |p| && p[jk] == txns[k];
    assert StampOf(p[jk]) <= MaxBy(p, StampOf);
  }

  /** Recency is the latest day over all rows minus the latest day among the
      customer's own rows: taking `.date()` after the maximum (line 90 and the
      lambda of line 92) is the same as taking the maximum of the days. */
  lemma RecencyIs(txns: seq<Txn>, i: int)
    requires |txns| > 0
    requires 0 <= i < |CalculateRfm(txns)|
    ensures CustomerIds(txns)[i] in CustomerIds(txns)
    ensures |Purchases(txns, CustomerIds(txns)[i])| > 0
    ensures CalculateRfm(txns)[i].customerId == CustomerIds(txns)[i]
    ensures CalculateRfm(txns)[i].recency
            == MaxBy(txns, DayOf) - MaxBy(Purchases(txns, CustomerIds(txns)[i]), DayOf)
  {
    var c := CustomerIds(txns)[i];
    KeyGroupNonEmpty(txns, CustomerOf, c);
    TruncateAfterMax(txns);
    TruncateAfterMax(Purchases(txns, c));
  }

  /** The day of a customer's latest purchase is at most the reference day, and
      equal to it exactly when one of the customer's purchases falls on it. */
  lemma LatestDay(txns: seq<Txn>, c: int)
    requires c in CustomerIds(txns)
    ensures |txns| > 0 && |Purchases(txns, c)| > 0
    ensures Day(MaxBy(Purchases(txns, c), StampOf)) <= ReferenceDay(txns)
    ensures Day(MaxBy(Purchases(txns, c), StampOf)) == ReferenceDay(txns) <==>
              exists k :: 0 <= k < |txns| && txns[k].customerId == c
                                          && Day(txns[k].invoiceDate) == ReferenceDay(txns)
  {
    LatestPurchase(txns, c);
    var last := MaxBy(Purchases(txns, c), StampOf);
    DayMonotone(last, MaxBy(txns, StampOf));
    if exists k :: 0 <= k < |txns| && txns[k].customerId == c && Day(txns[k].invoiceDate) == ReferenceDay(txns) {
      var k :| 0 <= k < |txns| && txns[k].customerId == c && Day(txns[k].invoiceDate) == ReferenceDay(txns);
      NoLaterPurchase(txns, c, k);
      DayMonotone(txns[k].invoiceDate, last);
    }
  }

  /** Recency of one customer: never negative, and 0 exactly when one of their
      purchases falls on the reference day. */
  lemma RecencyOfCustomer(txns: seq<Txn>, i: int)
    requires |txns| > 0
    requires 0 <= i < |CalculateRfm(txns)|
    ensures CalculateRfm(txns)[i].recency >= 0
    ensures CalculateRfm(txns)[i].recency == 0 <==>
              exists k :: 0 <= k < |txns| && txns[k].customerId == CalculateRfm(txns)[i].customerId
                                          && Day(txns[k].invoiceDate) == ReferenceDay(txns)
  {
    RecencyIs(txns, i);
    LatestDay(txns, CustomerIds(txns)[i]);
  }

  /** Recency is never negative and the customer(s) owning the latest invoice
      have Recency 0. */
  lemma RecencyProperties(txns: seq<Txn>)
    requires |txns| > 0
    ensures forall i :: 0 <= i < |CalculateRfm(txns)| ==> CalculateRfm(txns)[i].recency >= 0
    ensures exists i :: 0 <= i < |CalculateRfm(txns)| && CalculateRfm(txns)[i].recency == 0
  {
    var rfm := CalculateRfm(txns);
    var ids := CustomerIds(txns);
    forall i | 0 <= i < |rfm|
      ensures rfm[i].recency >= 0
    {
      RecencyOfCustomer(txns, i);
    }
    var k :| 0 <= k < |txns| && StampOf(txns[k]) == MaxBy(txns, StampOf);
    assert CustomerOf(txns[k]) in ids;
    var i :| 0 <= i < |ids| && ids[i] == txns[k].customerId;
    assert rfm[i].customerId == txns[k].customerId;
    RecencyOfCustomer(txns, i);
  }
}

=== FILE: scoring.dfy ===
/** Quantile-bin scoring: `CustomerSegmentation.prepare_rfm_features`
    (lib/mylib.py:102-120) and the module-level `prepare_rfm_features`
    (lib/mylib.py:350-360).  Each value is clipped into the range of its five
    bin edges and then binned as `pd.cut(..., include_lowest=True)` does. */
module Scoring {
  import opened Wrappers

  /** The three columns that are scored, as floats. */
  datatype Metrics = Metrics(recency: real, frequency: real, monetary: real)

  /** The (R, F, M) row handed to the scaler. */
  datatype Features = Features(r: int, f: int, m: int)

  /** The bins artifact: `r_bins`, `f_bins`, `m_bins`. */
  datatype Bins = Bins(rBins: seq<real>, fBins: seq<real>, mBins: seq<real>)

  const RecencyLabels: seq<int> := [4, 3, 2, 1]
  const ValueLabels: seq<int> := [1, 2, 3, 4]

  /** What `pd.cut` accepts with four labels: one edge more than labels, edges
      increasing and unique (it raises otherwise, duplicate edges included). */
  predicate Cuttable(edges: seq<real>) {
    |edges| == 5 && forall i, j :: 0 <= i < j < |edges| ==> edges[i] < edges[j]
  }

  predicate CuttableBins(bins: Bins) {
    Cuttable(bins.rBins) && Cuttable(bins.fBins) && Cuttable(bins.mBins)
  }

  /** `Series.clip(lower=lo, upper=hi)`. */
  function Clip(x: real, lo: real, hi: real): (y: real)
    requires lo <= hi
    ensures lo <= y <= hi
    ensures lo <= x <= hi ==> y == x
    ensures x < lo ==> y == lo
    ensures hi < x ==> y == hi
  {
    if x < lo then lo else if hi < x then hi else x
  }

  /** `searchsorted(x, side='left')` on sorted edges: how many edges lie strictly below `x`. */
  function CountBelow(edges: seq<real>, x: real): (n: nat)
    ensures n <= |edges|
  {
    if edges == [] then 0 else (if edges[0] < x then 1 else 0) + CountBelow(edges[1..], x)
  }

  /** On increasing edges, the edges below `x` are exactly a prefix. */
  lemma {:induction false} CountBelowSplits(edges: seq<real>, x: real)
    requires forall i, j :: 0 <= i < j < |edges| ==> edges[i] < edges[j]
    ensures forall i :: 0 <= i < CountBelow(edges, x) ==> edges[i] < x
    ensures forall i :: CountBelow(edges, x) <= i < |edges| ==> x <= edges[i]
  {
    if edges != [] {
      var rest := edges[1..];
      assert forall i :: 0 <= i < |rest| ==> rest[i] == edges[i + 1];
      CountBelowSplits(rest, x);
      if edges[0] >= x {
        assert forall i :: 0 <= i < |rest| ==> x < rest[i];
      }
    }
  }

  /** The 1-based interval `pd.cut(right=True, include_lowest=True)` puts `x`
      in: the first interval is closed on both ends, the others only on the right. */
  function BinIndex(edges: seq<real>, x: real): (k: int)
    requires Cuttable(edges)
    requires edges[0] <= x <= edges[4]
    ensures 1 <= k <= 4
    ensures edges[k - 1] <= x <= edges[k]
    ensures k > 1 ==> edges[k - 1] < x
  {
    CountBelowSplits(edges, x);
    if x == edges[0] then 1 else CountBelow(edges, x)
  }

  /** Clip, cut and label one value: the clipped value gets the label of the
      interval it falls in (the first closed on both ends, the others only on
      the right). */
  function Score(x: real, edges: seq<real>, labels: seq<int>): (s: int)
    requires Cuttable(edges) && |labels| == 4
    ensures s in labels
    ensures var y := Clip(x, edges[0], edges[4]);
            forall k :: 1 <= k <= 4 && InInterval(edges, y, k) ==> s == labels[k - 1]
  {
    var y := Clip(x, edges[0], edges[4]);
    IntervalDeterminesBin(edges, y);
    labels[BinIndex(edges, y) - 1]
  }

  /** Interval k of `pd.cut(right=True, include_lowest=True)` on five edges. */
  predicate InInterval(edges: seq<real>, x: real, k: int)
    requires |edges| == 5 && 1 <= k <= 4
  {
    if k == 1 then edges[0] <= x <= edges[1] else edges[k - 1] < x <= edges[k]
  }

  lemma IntervalDeterminesBin(edges: seq<real>, x: real)
    requires Cuttable(edges)
    requires edges[0] <= x <= edges[4]
    ensures forall k :: 1 <= k <= 4 && InInterval(edges, x, k) ==> BinIndex(edges, x) == k
  {
    forall k | 1 <= k <= 4 && InInterval(edges, x, k)
      ensures BinIndex(edges, x) == k
    {
      BinIndexExactly(edges, x, k);
    }
  }

  /** R: labels [4, 3, 2, 1] in edge order. */
  function RecencyScore(x: real, edges: seq<real>): (s: int)
    requires Cuttable(edges)
    ensures 1 <= s <= 4
  {
    Score(x, edges, RecencyLabels)
  }

  /** F and M: labels [1, 2, 3, 4] in edge order. */
  function ValueScore(x: real, edges: seq<real>): (s: int)
    requires Cuttable(edges)
    ensures 1 <= s <= 4
  {
    Score(x, edges, ValueLabels)
  }

  /** One (R, F, M) row; every score is one of the four labels. */
  function ScoreRow(row: Metrics, bins: Bins): (f: Features)
    requires CuttableBins(bins)
    ensures 1 <= f.r <= 4 && 1 <= f.f <= 4 && 1 <= f.m <= 4
  {
    Features(RecencyScore(row.recency, bins.rBins),
             ValueScore(row.frequency, bins.fBins),
             ValueScore(row.monetary, bins.mBins))
  }

  /** The module-level `prepare_rfm_features(df)` (lines 350-360): one feature
      row per input row, in order; None where `pd.cut` raises. */
  function PrepareFeatures(rows: seq<Metrics>, bins: Bins): (r: Option<seq<Features>>)
    ensures r.Some? <==> CuttableBins(bins)
    ensures r.Some? ==> |r.value| == |rows|
    ensures r.Some? ==> forall i :: 0 <= i < |rows| ==> r.value[i] == ScoreRow(rows[i], bins)
  {
    if CuttableBins(bins) then Some(seq(|rows|, i requires 0 <= i < |rows| => ScoreRow(rows[i], bins)))
    else None
  }

  /** `CustomerSegmentation.prepare_rfm_features` (lines 102-120): the same
      scoring, but a failure is caught and an empty table returned. */
  function PrepareFeaturesOrEmpty(rows: seq<Metrics>, bins: Bins): (r: seq<Features>)
    ensures CuttableBins(bins) ==> |r| == |rows|
    ensures CuttableBins(bins) ==> forall i :: 0 <= i < |rows| ==> r[i] == ScoreRow(rows[i], bins)
    ensures !CuttableBins(bins) ==> r == []
  {
    PrepareFeatures(rows, bins).GetOr([])
  }

  /** The interval a value falls in is determined by the edges: the lowest edge
      belongs to interval 1 (include_lowest) and any other edge `edges[k]` to
      interval k, the one on its left (right-closed). */
  lemma BinIndexExactly(edges: seq<real>, x: real, k: int)
    requires Cuttable(edges)
    requires 1 <= k <= 4
    requires InInterval(edges, x, k)
    ensures BinIndex(edges, x) == k
  {
  }

  /** Scores of the edges themselves. */
  lemma EdgeScores(edges: seq<real>)
    requires Cuttable(edges)
    ensures ValueScore(edges[0], edges) == 1 && RecencyScore(edges[0], edges) == 4
    ensures forall k :: 1 <= k <= 4 ==> ValueScore(edges[k], edges) == k
    ensures forall k :: 1 <= k <= 4 ==> RecencyScore(edges[k], edges) == 5 - k
  {
    BinIndexExactly(edges, edges[0], 1);
    forall k | 1 <= k <= 4
      ensures ValueScore(edges[k], edges) == k && RecencyScore(edges[k], edges) == 5 - k
    {
      BinIndexExactly(edges, edges[k], k);
    }
  }

  /** Values outside the edges score like the nearest edge: at or below the
      lowest edge F/M score 1 and R scores 4; at or above the highest edge F/M
      score 4 and R scores 1. */
  lemma OutOfRangeScores(edges: seq<real>, x: real)
    requires Cuttable(edges)
    ensures x <= edges[0] ==> ValueScore(x, edges) == 1 && RecencyScore(x, edges) == 4
    ensures edges[4] <= x ==> ValueScore(x, edges) == 4 && RecencyScore(x, edges) == 1
  {
    BinIndexExactly(edges, edges[0], 1);
    BinIndexExactly(edges, edges[4], 4);
  }

  lemma BinIndexMonotone(edges: seq<real>, x: real, y: real)
    requires Cuttable(edges)
    requires edges[0] <= x <= y <= edges[4]
    ensures BinIndex(edges, x) <= BinIndex(edges, y)
  {
  }

  /** Scoring is monotone: a larger Frequency or Monetary never lowers its
      score, and a larger Recency never raises R. */
  lemma ScoresMonotone(edges: seq<real>, x: real, y: real)
    requires Cuttable(edges)
    requires x <= y
    ensures ValueScore(x, edges) <= ValueScore(y, edges)
    ensures RecencyScore(x, edges) >= RecencyScore(y, edges)
  {
    BinIndexMonotone(edges, Clip(x, edges[0], edges[4]), Clip(y, edges[0], edges[4]));
  }
}

=== FILE: segmentation.dfy ===
/** Batch labelling: `CustomerSegmentation.segment_customers`
    (lib/mylib.py:122-141).  The pretrained scaler and KMeans model are one
    opaque row-wise function `predict` from a feature row to a cluster index. */
module Segmentation {
  import opened Wrappers
  import opened Grouping
  import opened Cleaning
  import opened Rfm
  import opened Scoring

  /** Line 136. */
  const ClusterMap: map<int, string> := map[0 := "Loyal", 1 := "Regular", 2 := "At-risk", 3 := "No-Potential"]

  /** Line 137, `Series.map(cluster_map)`: a cluster outside the map gets NaN (None). */
  function SegmentName(cluster: int): (name: Option<string>)
    ensures name.Some? <==> 0 <= cluster <= 3
  {
    if cluster in ClusterMap then Some(ClusterMap[cluster]) else None
  }

  /** The four names are distinct, so a name identifies its cluster; only
      cluster 0 is "Loyal". */
  lemma ClusterNames(c: int)
    requires 0 <= c <= 3
    ensures SegmentName(c).Some?
    ensures SegmentName(c).value in {"Loyal", "Regular", "At-risk", "No-Potential"}
    ensures c == 0 <==> SegmentName(c).value == "Loyal"
    ensures forall d :: 0 <= d <= 3 && d != c ==> SegmentName(d).value != SegmentName(c).value
  {
    assert "Loyal"[0] == 'L' && "Regular"[0] == 'R' && "At-risk"[0] == 'A' && "No-Potential"[0] == 'N';
  }

  /** A row of the table `segment_customers` returns. */
  datatype Segmented = Segmented(record: RfmRecord, cluster: int, segment: Option<string>)

  /** The RFM columns as the floats the binning sees. */
  function MetricsOf(r: RfmRecord): Metrics {
    Metrics(r.recency as real, r.frequency as real, r.monetary)
  }

  function AllMetrics(rfm: seq<RfmRecord>): (rows: seq<Metrics>)
    ensures |rows| == |rfm|
  {
    seq(|rfm|, i requires 0 <= i < |rfm| => MetricsOf(rfm[i]))
  }

  /** The table `rfm_df` of lines 127-137: the RFM rows, and the Cluster and
      Segment columns that lines 134 and 137 add in place (empty until then). */
  class RfmTable {
    var records: seq<RfmRecord>
    var clusters: seq<int>
    var segments: seq<Option<string>>

    ghost predicate Labelled()
      reads this
    {
      |clusters| == |records| && |segments| == |records|
    }

    constructor (records: seq<RfmRecord>)
      ensures this.records == records && clusters == [] && segments == []
    {
      this.records := records;
      clusters := [];
      segments := [];
    }

    /** Line 134: `rfm_df['Cluster'] = ...`. */
    method SetClusters(c: seq<int>)
      requires |c| == |records|
      modifies this
      ensures clusters == c
      ensures records == old(records) && segments == old(segments)
    {
      clusters := c;
    }

    /** Line 137: `rfm_df['Segment'] = rfm_df['Cluster'].map(cluster_map)`. */
    method SetSegments()
      modifies this
      ensures |segments| == |clusters|
      ensures forall i :: 0 <= i < |clusters| ==> segments[i] == SegmentName(clusters[i])
      ensures records == old(records) && clusters == old(clusters)
    {
      var cs := clusters;
      segments := seq(|cs|, i requires 0 <= i < |cs| => SegmentName(cs[i]));
    }

    /** The table as rows. */
    function Rows(): (rows: seq<Segmented>)
      reads this
      requires Labelled()
      ensures |rows| == |records|
    {
      var rs, cs, ss := records, clusters, segments;
      seq(|rs|, i requires 0 <= i < |rs| => Segmented(rs[i], cs[i], ss[i]))
    }
  }

  /** What `segment_customers` returns for a given upload: an empty table when
      cleaning or aggregation yields nothing, or when binning fails (the empty
      feature table then makes `scaler.transform` raise); otherwise every RFM row
      with its cluster and segment name. */
  function Segment(raw: seq<RawRow>, bins: Bins, predict: Features -> int): (rows: seq<Segmented>)
    ensures rows != [] ==> |rows| == |CustomerIds(Cleaned(raw))|
    ensures forall i :: 0 <= i < |rows| ==> rows[i].segment == SegmentName(rows[i].cluster)
  {
    SegmentCleaned(Cleaned(raw), bins, predict)
  }

  /** The part of `segment_customers` after line 125. */
  function SegmentCleaned(cleaned: seq<Txn>, bins: Bins, predict: Features -> int): (rows: seq<Segmented>)
    ensures rows != [] ==> |rows| == |CustomerIds(cleaned)|
    ensures forall i :: 0 <= i < |rows| ==> rows[i].segment == SegmentName(rows[i].cluster)
  {
    if cleaned == [] then []
    else
      var rfm := CalculateRfm(cleaned);
      if rfm == [] then []
      else
        var x := PrepareFeaturesOrEmpty(AllMetrics(rfm), bins);
        if x == [] then [] else Labels(rfm, x, predict)
  }

  /** Each RFM row with the cluster predicted from its feature row, and the
      cluster's name. */
  function Labels(rfm: seq<RfmRecord>, x: seq<Features>, predict: Features -> int): (rows: seq<Segmented>)
    requires |x| == |rfm|
    ensures |rows| == |rfm|
    ensures forall i :: 0 <= i < |rows| ==> rows[i].record == rfm[i] && rows[i].cluster == predict(x[i])
    ensures forall i :: 0 <= i < |rows| ==> rows[i].segment == SegmentName(rows[i].cluster)
  {
    seq(|rfm|, i requires 0 <= i < |rfm| => Segmented(rfm[i], predict(x[i]), SegmentName(predict(x[i]))))
  }

  /** `segment_customers(df)`: clean the caller's frame (which `clean_data`
      overwrites in place), then build and label the RFM table. */
  method SegmentCustomers(df: Frame, bins: Bins, predict: Features -> int) returns (table: RfmTable)
    modifies df
    ensures fresh(table) && table.Labelled()
    ensures table.Rows() == Segment(old(df.rows), bins, predict)
    ensures HasInfiniteId(old(df.rows)) ==> df.rows == old(df.rows)
    ensures !HasInfiniteId(old(df.rows)) ==> df.rows == WrittenBack(old(df.rows))
  {
    var cleaned := CleanData(df);
    table := LabelCustomers(cleaned, bins, predict);
  }

  /** Lines 126-139 on the cleaned table. */
  method LabelCustomers(cleaned: seq<Txn>, bins: Bins, predict: Features -> int) returns (table: RfmTable)
    ensures fresh(table) && table.Labelled()
    ensures table.Rows() == SegmentCleaned(cleaned, bins, predict)
  {
    if cleaned == [] {
      table := new RfmTable([]);
      return;
    }
    var rfm := CalculateRfm(cleaned);
    if rfm == [] {
      table := new RfmTable([]);
      return;
    }
    var x := PrepareFeaturesOrEmpty(AllMetrics(rfm), bins);
    if x == [] {
      table := new RfmTable([]);
      return;
    }
    table := Annotate(rfm, x, predict);
  }

  /** Lines 132-137: a table of the RFM rows with the Cluster column the model
      predicts from the feature rows and the Segment column named from it. */
  method Annotate(rfm: seq<RfmRecord>, x: seq<Features>, predict: Features -> int) returns (table: RfmTable)
    requires |x| == |rfm|
    ensures fresh(table) && table.Labelled()
    ensures table.Rows() == Labels(rfm, x, predict)
  {
    table := new RfmTable(rfm);
    table.SetClusters(seq(|x|, i requires 0 <= i < |x| => predict(x[i])));
    table.SetSegments();
    assert forall i :: 0 <= i < |rfm| ==> table.Rows()[i] == Labels(rfm, x, predict)[i];
  }

  /** The result is empty exactly when cleaning leaves no row or the bins are
      not accepted by `pd.cut`. */
  lemma SegmentEmptyIff(raw: seq<RawRow>, bins: Bins, predict: Features -> int)
    ensures Segment(raw, bins, predict) == [] <==> Cleaned(raw) == [] || !CuttableBins(bins)
  {
    RfmRowsAreAggregates(Cleaned(raw));
  }

  /** Otherwise there is one row per customer of the cleaned table, in
      CustomerID order, carrying that customer's RFM values, the cluster the
      model assigns to the customer's scores, and that cluster's name. */
  lemma SegmentCleanedRows(cleaned: seq<Txn>, bins: Bins, predict: Features -> int)
    requires cleaned != [] && CuttableBins(bins)
    ensures |SegmentCleaned(cleaned, bins, predict)| == |CalculateRfm(cleaned)|
    ensures forall i :: 0 <= i < |SegmentCleaned(cleaned, bins, predict)| ==>
              var row := SegmentCleaned(cleaned, bins, predict)[i];
              && row.record == CalculateRfm(cleaned)[i]
              && row.cluster == predict(ScoreRow(MetricsOf(row.record), bins))
              && row.segment == SegmentName(row.cluster)
  {
    RfmRowsAreAggregates(cleaned);
  }

  /** When the model only produces the four cluster indices, every labelled
      row gets one of the four names, and the name matches its cluster. */
  lemma LabelNames(rfm: seq<RfmRecord>, x: seq<Features>, predict: Features -> int)
    requires |x| == |rfm|
    requires forall f :: 0 <= predict(f) <= 3
    ensures forall i :: 0 <= i < |Labels(rfm, x, predict)| ==>
              var row := Labels(rfm, x, predict)[i];
              && row.segment.Some?
              && row.segment.value in {"Loyal", "Regular", "At-risk", "No-Potential"}
              && (row.cluster == 0 <==> row.segment.value == "Loyal")
  {
    var rows := Labels(rfm, x, predict);
    forall i | 0 <= i < |rows|
      ensures rows[i].segment.Some?
      ensures rows[i].segment.value in {"Loyal", "Regular", "At-risk", "No-Potential"}
      ensures rows[i].cluster == 0 <==> rows[i].segment.value == "Loyal"
    {
      ClusterNames(rows[i].cluster);
    }
  }

  /** The same for the whole batch. */
  lemma SegmentNamesDefined(raw: seq<RawRow>, bins: Bins, predict: Features -> int)
    requires forall f :: 0 <= predict(f) <= 3
    ensures forall i :: 0 <= i < |Segment(raw, bins, predict)| ==>
              var row := Segment(raw, bins, predict)[i];
              && row.segment.Some?
              && row.segment.value in {"Loyal", "Regular", "At-risk", "No-Potential"}
              && (row.cluster == 0 <==> row.segment.value == "Loyal")
  {
    var cleaned := Cleaned(raw);
    if cleaned != [] {
      var rfm := CalculateRfm(cleaned);
      var x := PrepareFeaturesOrEmpty(AllMetrics(rfm), bins);
      if rfm != [] && x != [] {
        LabelNames(rfm, x, predict);
      }
    }
  }

  /** Labelling is idempotent on the caller's frame: once `clean_data` has
      written the coerced columns back, labelling the frame again gives the
      same table. */
  lemma SegmentIdempotent(raw: seq<RawRow>, bins: Bins, predict: Features -> int)
    requires !HasInfiniteId(raw)
    ensures Segment(WrittenBack(raw), bins, predict) == Segment(raw, bins, predict)
  {
    RecleanSame(raw);
  }

  /** Running `segment_customers` twice on the same DataFrame: the second run,
      which sees the columns the first one overwrote, returns the same table. */
  method SegmentTwice(df: Frame, bins: Bins, predict: Features -> int) returns (first: RfmTable, second: RfmTable)
    modifies df
    ensures fresh(first) && fresh(second) && first.Labelled() && second.Labelled()
    ensures first.Rows() == Segment(old(df.rows), bins, predict)
    ensures second.Rows() == first.Rows()
  {
    ghost var raw := df.rows;
    first := SegmentCustomers(df, bins, predict);
    second := SegmentCustomers(df, bins, predict);
    if !HasInfiniteId(raw) {
      SegmentIdempotent(raw, bins, predict);
    }
  }
}

=== FILE: summary.dfy ===
/** Cluster summaries: `CustomerSegmentation.summarize_clusters`
    (lib/mylib.py:143-154) and the arithmetic that
    `SegmentationVisualizer.show_cluster_summary` (lib/mylib.py:263-288)
    performs before displaying its table.  Averages and shares are exact reals;
    the display rounding is not modelled. */
module Summary {
  import opened Grouping
  import opened Cleaning
  import opened Rfm
  import opened Scoring
  import opened Segmentation

  function ClusterOf(s: Segmented): int { s.cluster }
  function RecencyOfRow(s: Segmented): real { s.record.recency as real }
  function FrequencyOfRow(s: Segmented): real { s.record.frequency as real }
  function MonetaryOfRow(s: Segmented): real { s.record.monetary }
  function OneOfRow(s: Segmented): real { 1.0 }

  /** Line 278: the revenue of a customer is Frequency times Monetary; it is
      positive for a customer who bought at least once for a positive amount. */
  function RevenueOf(s: Segmented): (r: real)
    ensures s.record.monetary >= 0.0 ==> r >= 0.0
    ensures s.record.frequency >= 1 && s.record.monetary > 0.0 ==> r > 0.0
  {
    if s.record.frequency >= 1 && s.record.monetary > 0.0 then
      ProductPositive(s.record.frequency as real, s.record.monetary);
      s.record.frequency as real * s.record.monetary
    else s.record.frequency as real * s.record.monetary
  }

  /** Column mean, for a non-empty column: the value that, taken once per row,
      gives the column sum. */
  function Mean<T>(xs: seq<T>, f: T -> real): (m: real)
    requires |xs| > 0
    ensures |xs| as real * m == Sum(xs, f)
  {
    TimesQuotient(Sum(xs, f), |xs| as real);
    Sum(xs, f) / |xs| as real
  }

  lemma TimesQuotient(t: real, n: real)
    requires n > 0.0
    ensures n * (t / n) == t
  {
  }

  /** The groupby keys of `groupby('Cluster')`: the distinct clusters, ascending. */
  function Clusters(rows: seq<Segmented>): seq<int> {
    SortedKeys(rows, ClusterOf)
  }

  /** The customers of one cluster. */
  function Members(rows: seq<Segmented>, c: int): seq<Segmented> {
    Group(rows, ClusterOf, c)
  }

  /** One row of the `summarize_clusters` table: the cluster, the means of
      Recency, Frequency and Monetary over its customers, and how many customers
      it has. */
  datatype ClusterStats = ClusterStats(cluster: int, recency: real, frequency: real, monetary: real, count: nat)

  /** The statistics of one cluster: its customers' count and the means of
      their Recency, Frequency and Monetary. */
  function StatsOf(rows: seq<Segmented>, c: int): (s: ClusterStats)
    requires c in Clusters(rows)
    ensures s.cluster == c && s.count == |Members(rows, c)| && s.count >= 1
  {
    KeyGroupNonEmpty(rows, ClusterOf, c);
    var m := Members(rows, c);
    ClusterStats(c, Mean(m, RecencyOfRow), Mean(m, FrequencyOfRow), Mean(m, MonetaryOfRow), |m|)
  }

  /** Each mean of a cluster, times the cluster's count, is the cluster's
      column sum. */
  lemma StatsTimesCount(rows: seq<Segmented>, c: int)
    requires c in Clusters(rows)
    ensures RecencyTotalOf(StatsOf(rows, c)) == Sum(Members(rows, c), RecencyOfRow)
    ensures FrequencyTotalOf(StatsOf(rows, c)) == Sum(Members(rows, c), FrequencyOfRow)
    ensures MonetaryTotalOf(StatsOf(rows, c)) == Sum(Members(rows, c), MonetaryOfRow)
  {
    KeyGroupNonEmpty(rows, ClusterOf, c);
    MeansTimesCount(c, Members(rows, c), StatsOf(rows, c));
  }

  lemma MeansTimesCount(c: int, m: seq<Segmented>, s: ClusterStats)
    requires |m| > 0
    requires s == ClusterStats(c, Mean(m, RecencyOfRow), Mean(m, FrequencyOfRow), Mean(m, MonetaryOfRow), |m|)
    ensures RecencyTotalOf(s) == Sum(m, RecencyOfRow)
    ensures FrequencyTotalOf(s) == Sum(m, FrequencyOfRow)
    ensures MonetaryTotalOf(s) == Sum(m, MonetaryOfRow)
  {
  }

  /** `summarize_clusters(rfm_df)`: one row per cluster, in ascending cluster
      order.  An empty labelled table has no `Cluster` column, the groupby
      raises and an empty table is returned; either way the result is []. */
  function SummarizeClusters(rows: seq<Segmented>): (summary: seq<ClusterStats>)
    ensures |summary| == |Clusters(rows)|
    ensures forall i :: 0 <= i < |summary| ==> summary[i].cluster == Clusters(rows)[i] && summary[i].count >= 1
  {
    var ks := Clusters(rows);
    seq(|ks|, i requires 0 <= i < |ks| => StatsOf(rows, ks[i]))
  }

  /** One row of the table `show_cluster_summary` displays: the cluster's
      statistics, its share of the customers in percent, its revenue and its
      share of the revenue in percent. */
  datatype ClusterReport = ClusterReport(stats: ClusterStats, countShare: real, revenue: real, revenueShare: real)

  function CountOf(r: ClusterReport): real { r.stats.count as real }
  function CountShareOf(r: ClusterReport): real { r.countShare }
  function RevenueOfReport(r: ClusterReport): real { r.revenue }
  function RevenueShareOf(r: ClusterReport): real { r.revenueShare }

  /** Line 287: total revenue, or 1 when the total is 0. */
  function RevenueDenominator(rows: seq<Segmented>): (d: real)
    ensures d != 0.0
    ensures Sum(rows, RevenueOf) != 0.0 ==> d == Sum(rows, RevenueOf)
  {
    var total := Sum(rows, RevenueOf);
    if total != 0.0 then total else 1.0
  }

  /** The report row of cluster `c`, defined directly from the customers:
      count share against all customers, revenue share against all revenue. */
  function ReportOf(rows: seq<Segmented>, c: int): (r: ClusterReport)
    requires c in Clusters(rows)
    ensures r.stats == StatsOf(rows, c) && r.revenue == Sum(Members(rows, c), RevenueOf)
  {
    KeyGroupNonEmpty(rows, ClusterOf, c);
    var s := StatsOf(rows, c);
    var revenue := Sum(Members(rows, c), RevenueOf);
    ClusterReport(s, s.count as real / |rows| as real * 100.0, revenue,
                  revenue / RevenueDenominator(rows) * 100.0)
  }

  /** The revenue share of a report row is a percentage: times the revenue
      denominator it gives 100 times the cluster's revenue. */
  lemma RevenueShareOfReport(rows: seq<Segmented>, c: int)
    requires c in Clusters(rows)
    ensures ReportOf(rows, c).revenueShare * RevenueDenominator(rows) == ReportOf(rows, c).revenue * 100.0
  {
    var r := ReportOf(rows, c);
    ShareTimesWhole(r.revenue, RevenueDenominator(rows));
  }

  lemma ShareTimesWhole(part: real, whole: real)
    requires whole != 0.0
    ensures part / whole * 100.0 * whole == part * 100.0
  {
    var q := part / whole;
    assert q * whole == part;
  }

  /** What `show_cluster_summary` computes for a labelled table. */
  function ClusterSummary(rows: seq<Segmented>): (summary: seq<ClusterReport>)
    ensures |summary| == |Clusters(rows)|
  {
    var ks := Clusters(rows);
    seq(|ks|, i requires 0 <= i < |ks| => ReportOf(rows, ks[i]))
  }

  function Identity(x: real): real { x }

  /** The count column of line 273: `groupby('Cluster').size()`. */
  function CountColumn(rows: seq<Segmented>): (r: seq<nat>)
    ensures |r| == |Clusters(rows)|
    ensures forall i :: 0 <= i < |r| ==> r[i] >= 1 && r[i] == |Members(rows, Clusters(rows)[i])|
  {
    var ks := Clusters(rows);
    seq(|ks|, i requires 0 <= i < |ks| => StatsOf(rows, ks[i]).count)
  }

  /** The per-cluster revenue column of lines 277-281. */
  function RevenueColumn(rows: seq<Segmented>): (r: seq<real>)
    ensures |r| == |Clusters(rows)|
  {
    var ks := Clusters(rows);
    seq(|ks|, i requires 0 <= i < |ks| => Sum(Members(rows, ks[i]), RevenueOf))
  }

  /** Summing the per-cluster revenue column gives the revenue of all
      customers, so line 287 divides by the same total as `ReportOf`. */
  lemma RevenueColumnTotal(rows: seq<Segmented>)
    ensures Sum(RevenueColumn(rows), Identity) == Sum(rows, RevenueOf)
  {
    var ks := Clusters(rows);
    PerGroupColumnSum(RevenueColumn(rows), Identity, rows, ClusterOf, RevenueOf, ks);
    GroupedSumTotal(rows, ClusterOf, RevenueOf, ks);
  }

  /** The report of the i-th cluster, column by column. */
  lemma ReportColumns(rows: seq<Segmented>, i: int)
    requires 0 <= i < |Clusters(rows)|
    ensures |rows| > 0
    ensures ClusterSummary(rows)[i]
            == ClusterReport(SummarizeClusters(rows)[i],
                             CountColumn(rows)[i] as real / |rows| as real * 100.0,
                             RevenueColumn(rows)[i],
                             RevenueColumn(rows)[i] / RevenueDenominator(rows) * 100.0)
  {
    KeyGroupNonEmpty(rows, ClusterOf, Clusters(rows)[i]);
  }

  /** Lines 263-288: the summary table built column by column, as the source
      does: the means (266-270), the counts (273), the count shares (274), the
      per-cluster revenue sums (277-284) and the revenue shares against the sum
      of the revenue column (287-288). */
  method ShowClusterSummary(rows: seq<Segmented>) returns (summary: seq<ClusterReport>)
    ensures summary == ClusterSummary(rows)
  {
    var total := |rows|;
    var stats := SummarizeClusters(rows);
    var counts := CountColumn(rows);
    var shares := seq(|counts|, i requires 0 <= i < |counts| =>
      if total == 0 then 0.0 else counts[i] as real / total as real * 100.0);
    var revenues := RevenueColumn(rows);
    var revenueTotal := Sum(revenues, Identity);
    var denominator := if revenueTotal != 0.0 then revenueTotal else 1.0;
    summary := seq(|stats|, i requires 0 <= i < |stats| =>
      ClusterReport(stats[i], shares[i], revenues[i], revenues[i] / denominator * 100.0));

    assert denominator == RevenueDenominator(rows) by {
      RevenueColumnTotal(rows);
    }
    forall i | 0 <= i < |stats|
      ensures summary[i] == ClusterSummary(rows)[i]
    {
      ReportColumns(rows, i);
    }
  }

  /** The summary has one row per cluster that occurs, in ascending order, and
      every cluster in it has at least one customer. */
  lemma SummaryOnePerCluster(rows: seq<Segmented>)
    ensures forall i, j :: 0 <= i < j < |ClusterSummary(rows)| ==>
              ClusterSummary(rows)[i].stats.cluster < ClusterSummary(rows)[j].stats.cluster
    ensures forall k :: 0 <= k < |rows| ==> rows[k].cluster in Clusters(rows)
    ensures forall i :: 0 <= i < |ClusterSummary(rows)| ==>
              ClusterSummary(rows)[i].stats.cluster == Clusters(rows)[i]
              && ClusterSummary(rows)[i].stats.count >= 1
  {
    var ks := Clusters(rows);
    forall i | 0 <= i < |ks|
      ensures ClusterSummary(rows)[i].stats.count >= 1
    {
      KeyGroupNonEmpty(rows, ClusterOf, ks[i]);
    }
  }

  /** A cluster's mean times its count: the cluster's column sum. */
  function RecencyTotalOf(s: ClusterStats): real { s.count as real * s.recency }
  function FrequencyTotalOf(s: ClusterStats): real { s.count as real * s.frequency }
  function MonetaryTotalOf(s: ClusterStats): real { s.count as real * s.monetary }

  /** The per-cluster means weighted by the cluster sizes give back the column
      sums of all customers: grouping loses and duplicates no customer. */
  lemma MeansAddUp(rows: seq<Segmented>)
    ensures Sum(SummarizeClusters(rows), RecencyTotalOf) == Sum(rows, RecencyOfRow)
    ensures Sum(SummarizeClusters(rows), FrequencyTotalOf) == Sum(rows, FrequencyOfRow)
    ensures Sum(SummarizeClusters(rows), MonetaryTotalOf) == Sum(rows, MonetaryOfRow)
  {
    forall c | c in Clusters(rows)
      ensures RecencyTotalOf(StatsOf(rows, c)) == Sum(Members(rows, c), RecencyOfRow)
      ensures FrequencyTotalOf(StatsOf(rows, c)) == Sum(Members(rows, c), FrequencyOfRow)
      ensures MonetaryTotalOf(StatsOf(rows, c)) == Sum(Members(rows, c), MonetaryOfRow)
    {
      StatsTimesCount(rows, c);
    }
    WeightedColumnAddsUp(rows, RecencyOfRow, RecencyTotalOf);
    WeightedColumnAddsUp(rows, FrequencyOfRow, FrequencyTotalOf);
    WeightedColumnAddsUp(rows, MonetaryOfRow, MonetaryTotalOf);
  }

  lemma WeightedColumnAddsUp(rows: seq<Segmented>, f: Segmented -> real, g: ClusterStats -> real)
    requires forall c :: c in Clusters(rows) ==> g(StatsOf(rows, c)) == Sum(Members(rows, c), f)
    ensures Sum(SummarizeClusters(rows), g) == Sum(rows, f)
  {
    var ks := Clusters(rows);
    var st := SummarizeClusters(rows);
    forall i | 0 <= i < |st|
      ensures g(st[i]) == Sum(Group(rows, ClusterOf, ks[i]), f)
    {
      assert ks[i] in ks;
    }
    PerGroupColumnSum(st, g, rows, ClusterOf, f, ks);
    GroupedSumTotal(rows, ClusterOf, f, ks);
  }

  /** The counts add up to the number of customers, and the count shares to
      100 percent. */
  lemma CountSharesAddUp(rows: seq<Segmented>)
    ensures Sum(ClusterSummary(rows), CountOf) == |rows| as real
    ensures rows != [] ==> Sum(ClusterSummary(rows), CountShareOf) == 100.0
  {
    var summary := ClusterSummary(rows);
    var ks := Clusters(rows);
    forall i | 0 <= i < |summary|
      ensures CountOf(summary[i]) == Sum(Members(rows, ks[i]), OneOfRow)
    {
      SumOfOnes(Members(rows, ks[i]), OneOfRow);
    }
    PerGroupColumnSum(summary, CountOf, rows, ClusterOf, OneOfRow, ks);
    GroupedSumTotal(rows, ClusterOf, OneOfRow, ks);
    SumOfOnes(rows, OneOfRow);
    if rows != [] {
      PercentagesOfTotal(summary, CountShareOf, CountOf, |rows| as real);
    }
  }

  /** The per-cluster revenues add up to the revenue of all customers. */
  lemma RevenueAddsUp(rows: seq<Segmented>)
    ensures Sum(ClusterSummary(rows), RevenueOfReport) == Sum(rows, RevenueOf)
  {
    var ks := Clusters(rows);
    PerGroupColumnSum(ClusterSummary(rows), RevenueOfReport, rows, ClusterOf, RevenueOf, ks);
    GroupedSumTotal(rows, ClusterOf, RevenueOf, ks);
  }

  /** The revenue shares add up to 100 percent unless the total revenue is 0;
      then the fallback denominator 1 makes every share 100 times the
      cluster's revenue. */
  lemma RevenueSharesAddUp(rows: seq<Segmented>)
    ensures Sum(rows, RevenueOf) != 0.0 ==> Sum(ClusterSummary(rows), RevenueShareOf) == 100.0
    ensures Sum(rows, RevenueOf) == 0.0 ==>
              forall i :: 0 <= i < |ClusterSummary(rows)| ==>
                ClusterSummary(rows)[i].revenueShare == ClusterSummary(rows)[i].revenue * 100.0
  {
    var summary := ClusterSummary(rows);
    var d := RevenueDenominator(rows);
    RevenueAddsUp(rows);
    if Sum(rows, RevenueOf) != 0.0 {
      PercentagesOfTotal(summary, RevenueShareOf, RevenueOfReport, d);
    }
  }

  /** A part of a positive total is between 0 and 100 percent of it. */
  lemma PercentOfTotal(part: real, total: real)
    requires 0.0 <= part <= total && total > 0.0
    ensures 0.0 <= part / total * 100.0 <= 100.0
  {
    var q := part / total;
    assert q * total == part;
  }

  /** With no negative revenue, every share lies between 0 and 100 percent. */
  lemma SharesBounded(rows: seq<Segmented>)
    requires forall k :: 0 <= k < |rows| ==> RevenueOf(rows[k]) >= 0.0
    ensures forall i :: 0 <= i < |ClusterSummary(rows)| ==>
              && 0.0 <= ClusterSummary(rows)[i].countShare <= 100.0
              && 0.0 <= ClusterSummary(rows)[i].revenueShare <= 100.0
  {
    var summary := ClusterSummary(rows);
    var ks := Clusters(rows);
    var total := Sum(rows, RevenueOf);
    RevenueAddsUp(rows);
    CountSharesAddUp(rows);
    forall j | 0 <= j < |summary|
      ensures RevenueOfReport(summary[j]) >= 0.0
    {
      var m := Members(rows, ks[j]);
      assert forall l :: 0 <= l < |m| ==> m[l] in rows;
      SumNonNegative(m, RevenueOf);
    }
    forall i | 0 <= i < |summary|
      ensures 0.0 <= summary[i].countShare <= 100.0
      ensures 0.0 <= summary[i].revenueShare <= 100.0
    {
      SumBoundsEach(summary, CountOf, i);
      PercentOfTotal(CountOf(summary[i]), |rows| as real);
      SumBoundsEach(summary, RevenueOfReport, i);
      if total != 0.0 {
        PercentOfTotal(summary[i].revenue, total);
      }
    }
  }

  lemma ProductPositive(f: real, m: real)
    requires f >= 1.0 && m > 0.0
    ensures f * m > 0.0
  {
  }

  /** Labelled rows of customers who bought at least once and spent a positive
      amount all have positive revenue. */
  lemma LabelsRevenuePositive(rfm: seq<RfmRecord>, x: seq<Features>, predict: Features -> int)
    requires |x| == |rfm|
    requires forall i :: 0 <= i < |rfm| ==> rfm[i].frequency >= 1 && rfm[i].monetary > 0.0
    ensures forall k :: 0 <= k < |rfm| ==> RevenueOf(Labels(rfm, x, predict)[k]) > 0.0
  {
    forall k | 0 <= k < |rfm|
      ensures RevenueOf(Labels(rfm, x, predict)[k]) > 0.0
    {
      ProductPositive(rfm[k].frequency as real, rfm[k].monetary);
    }
  }

  /** On the output of `segment_customers` every customer bought at least once
      and spent a positive amount, so every revenue is positive. */
  lemma SegmentRevenuePositive(raw: seq<RawRow>, bins: Bins, predict: Features -> int)
    ensures forall k :: 0 <= k < |Segment(raw, bins, predict)| ==> RevenueOf(Segment(raw, bins, predict)[k]) > 0.0
  {
    CleanedRevenuePositive(Cleaned(raw), bins, predict);
  }

  lemma CleanedRevenuePositive(cleaned: seq<Txn>, bins: Bins, predict: Features -> int)
    requires forall k :: 0 <= k < |cleaned| ==> cleaned[k].totalSales > 0.0
    ensures forall k :: 0 <= k < |SegmentCleaned(cleaned, bins, predict)| ==>
              RevenueOf(SegmentCleaned(cleaned, bins, predict)[k]) > 0.0
  {
    var rfm := CalculateRfm(cleaned);
    var x := PrepareFeaturesOrEmpty(AllMetrics(rfm), bins);
    if SegmentCleaned(cleaned, bins, predict) != [] {
      assert SegmentCleaned(cleaned, bins, predict) == Labels(rfm, x, predict);
      FrequencyAndMonetaryPositive(cleaned);
      LabelsRevenuePositive(rfm, x, predict);
    }
  }

  /** Hence the total revenue is positive and the fallback denominator is never
      used: both share columns of the summary add up to 100 percent. */
  lemma PipelineShares(raw: seq<RawRow>, bins: Bins, predict: Features -> int)
    requires Segment(raw, bins, predict) != []
    ensures Sum(Segment(raw, bins, predict), RevenueOf) > 0.0
    ensures Sum(ClusterSummary(Segment(raw, bins, predict)), CountShareOf) == 100.0
    ensures Sum(ClusterSummary(Segment(raw, bins, predict)), RevenueShareOf) == 100.0
  {
    var rows := Segment(raw, bins, predict);
    SegmentRevenuePositive(raw, bins, predict);
    SumPositive(rows, RevenueOf);
    CountSharesAddUp(rows);
    RevenueSharesAddUp(rows);
  }
}

=== FILE: wrappers.dfy ===
/** The Option type used for cells that pandas may leave empty (NaN/NaT) and for
    operations that raise in the source. */
module Wrappers {

  datatype Option<+T> = None | Some(value: T) {

    /** Returns the value in Some or the given default for None. */
    function GetOr(default: T): T {
      match this
      case Some(v) => v
      case None => default
    }
  }
}
